=== FILE: README.md ===
# 0g-scan explorer logic in Dafny

This project models the logic of the 0g-scan blockchain explorer front-end. That is the part of it that is not HTTP plumbing or React rendering:

- the response normalisation of `src/lib/rpc.ts`:
  - the page envelopes and their fallbacks;
  - the ERC20 transfer reshaping;
  - the token holdings list;
  - the `net16601:` address resolver;
  - the block-hash transaction list;
  - the bounded backwards block walk;
  - the chart data.
- the search-box classifier of `Header.tsx`;
- the miner leaderboard pager, as a state machine;
- the transaction table: age decomposition, cells and view states;
- the transaction detail view, with its exact gas fee;
- the dashboard statistics endpoint;
- the daily chart series;
- the token holdings table.

Network results are input values:

- `Fetched<J>` is either `Threw` or `Http(ok, body)`, for `fetch` followed by `res.json()`.
- `Settled<T>` is either `Rejected` or `Resolved(v)`, for an awaited provider call.
- Per-key calls such as `getBlock(n)`, `getTransaction(hash)` and the account lookup are oracle functions passed as parameters.

JavaScript `||` is modelled through truthiness: `undefined`, `null`, `""` and `0` are falsy. `??` is `Option.GetOr`. `slice` keeps its negative-index and clamping rules. `%` truncates toward zero, and `trim` uses the ECMAScript whitespace set.

Each source file is one module:

| module | source file |
|---|---|
| `Wrappers` | shared optional values and outcomes |
| `Js` | the JavaScript built-ins |
| `RpcPages`, `RpcAddress`, `RpcBlocks` | `src/lib/rpc.ts` |
| `Search` | `src/components/Header.tsx` |
| `MinerRank` | `src/app/miner/rank/page.tsx` |
| `TransactionTable` | `src/components/TransactionTable.tsx` |
| `TxDetail` | `src/components/TxDetailClient.tsx` |
| `Dashboard` | `src/app/api/Dashboard/route.ts` |
| `ChartSection` | `src/components/ChartSection.tsx` |
| `TokenTable` | `src/components/TokenTable.tsx` |

## Model

| member | source | states |
|---|---|---|
| Js.Slice | src/lib/rpc.ts:48 | `slice(start, end)` returns the elements between the clamped relative indices, in order. Its length is their difference, and it is empty when they cross. |
| Js.Reverse | src/components/ChartSection.tsx:23 | `reverse()` keeps the length and puts element `i` at position `n-1-i`. |
| Js.ReverseInvolution | src/components/ChartSection.tsx:23 | Reversing twice restores the array. |
| Js.ReversePermutes | src/components/ChartSection.tsx:23 | Reversal keeps every element with its multiplicity. |
| Js.Lower | src/app/api/Dashboard/route.ts:37-38 | `toLowerCase()` keeps the length, maps each ASCII capital to its lower-case letter and leaves every other character alone, so no ASCII capital remains. |
| Js.LowerIdempotent | src/app/api/Dashboard/route.ts:37-38 | Lower-casing a lower-cased string changes nothing. |
| RpcPages.PageOf | src/lib/rpc.ts:77-89 | A non-ok response or an exception gives `{list: [], total: 0}`. Otherwise the list is `result.list` and the total is a truthy `result.total`. The list is empty exactly when no list arrived or it was empty. The total is 0 exactly when it was falsy or the call failed. |
| RpcPages.PageRoundTrip | src/lib/rpc.ts:272-285 | Normalising an ok response that carries a page gives back exactly that page, a zero total included. |
| RpcPages.ToTransfer | src/lib/rpc.ts:103-113 | Fields are renamed and passed through. `symbol` and `name` are `''` exactly when falsy. `decimals` is never 0: a falsy value becomes 18. |
| RpcPages.ZeroDecimalsReadAs18 | src/lib/rpc.ts:111 | Any transfer whose token info declares 0 decimals is reported with 18, whatever its other fields. |
| RpcPages.ERC20Transfers | src/lib/rpc.ts:95-119 | The result is the envelope with one reshaped transfer per item, in order. A null item gives the empty page. |
| RpcPages.TransfersRoundTrip | src/lib/rpc.ts:99-115 | Serving transfers with non-zero decimals gives back every transfer with all its fields, in order, with the served total. |
| RpcPages.TokenHoldings | src/lib/rpc.ts:137-153 | `ok` is not checked. A thrown fetch, a missing result, a missing list or a null item gives `[]`. Otherwise the items come back in order. |
| RpcPages.HoldingsRoundTrip | src/lib/rpc.ts:139-149 | Serving a list of holdings gives it back exactly, whatever the `ok` flag. |
| RpcPages.StorageTxCount | src/lib/rpc.ts:213-222 | One request. The result is the server's `total ?? 0`, or 0 on failure. |
| RpcPages.StorageCountIsPageTotal | src/lib/rpc.ts:218 | The storage count always equals the total the page envelope gives for the same response. |
| RpcPages.MinerReward | src/lib/rpc.ts:227-236 | The result is `totalReward ?? '0'`, or `'0'` on failure. |
| RpcPages.RewardRoundTrip | src/lib/rpc.ts:231-232 | Any served reward comes back unchanged. This includes the empty string, which `??` keeps where `||` would not. |
| RpcAddress.ConvertToEvmAddress | src/lib/rpc.ts:356-365 | Input without the `net16601:` prefix is returned as is, including undefined or null. Prefixed input becomes the looked-up address when that is non-empty. On any failure the input is kept. |
| RpcAddress.NonNativeNeedsNoLookup | src/lib/rpc.ts:357 | The result for non-prefixed input does not depend on the lookup. |
| RpcAddress.ResolvedNeverEmpty | src/lib/rpc.ts:358-364 | A non-empty address never resolves to an empty one. |
| RpcAddress.EnrichAll | src/lib/rpc.ts:339-348 | The output has the same length and order as the input. Each item keeps its fields, with `from` and `to` converted. |
| RpcAddress.TransactionsByBlockHash | src/lib/rpc.ts:329-353 | The result is `[]` on a thrown fetch, on `status !== '1'`, on a missing list or on a null item. Otherwise it is the enriched list. |
| RpcAddress.HexListUnchanged | src/lib/rpc.ts:339-349 | A list that already uses hex addresses comes back unchanged. |
| RpcBlocks.Keep | src/lib/rpc.ts:39-41 | Kept are exactly the non-null transactions with a string `hash` and `from`, and nothing else. |
| RpcBlocks.KeepAppend | src/lib/rpc.ts:39-42 | Filtering a concatenation filters each part, so concatenating filtered blocks equals filtering the concatenated blocks. |
| RpcBlocks.GatheredValid | src/lib/rpc.ts:38-43 | Every transaction the walk gathers passed the filter. |
| RpcBlocks.WalkBlocks | src/lib/rpc.ts:30-48 | The walk visits at most 100 blocks, numbered latest, latest−1, …, in that order. It continues only while fewer than `txCount` are gathered. It stops at 100 blocks or `txCount` transactions. The result is the first `txCount` of the gathered transactions in walk order, all valid. A rejected `getBlock` rejects the call. |
| RpcBlocks.RecentTransactions | src/lib/rpc.ts:29-49 | A rejected `getBlockNumber` rejects the call before any block is requested. Otherwise the walk runs from the reported height: blocks latest, latest−1, … in order, at most 100, every block before the last one resolved, and a rejected `getBlock` rejects the call. The result is at most `txCount` valid transactions, the first ones gathered, and the walk stops only at 100 blocks or `txCount` transactions. |
| RpcBlocks.PointOf | src/lib/rpc.ts:60-61 | A null block gives the point (0, 0). Otherwise the point has the block's number and the length of its transaction list, 0 when that is missing. |
| RpcBlocks.ChartPoints | src/lib/rpc.ts:53-65 | The call rejects exactly when one of the `count` fetches rejects. Otherwise the points run oldest block first, with `number ?? 0` and `transactions.length ?? 0`. |
| RpcBlocks.TxChartData | src/lib/rpc.ts:51-66 | The call rejects exactly when `getBlockNumber` rejects or one of the `count` block fetches rejects. Otherwise there is one point per block, oldest first. |
| RpcBlocks.ChartAscends | src/lib/rpc.ts:59-61 | When the blocks report their heights, the chart's block numbers strictly increase. |
| RpcBlocks.WalkBlocksAsWritten | src/lib/rpc.ts:38-42 | On blocks whose `transactions` are hash strings, the filter keeps nothing. A resolved walk with a positive `txCount` returns `[]` after fetching all 100 blocks. |
| Search.TrimStart | src/components/Header.tsx:18 | The result is the suffix left after removing leading whitespace, and it does not start with whitespace. |
| Search.TrimEnd | src/components/Header.tsx:18 | The result is the prefix left after removing trailing whitespace, and it does not end with whitespace. |
| Search.Trim | src/components/Header.tsx:18 | `trim()` leaves the contiguous middle of the input: only whitespace precedes and follows it, and it neither starts nor ends with whitespace. |
| Search.ClassifyInput | src/components/Header.tsx:19-27 | Digits give a block route, `0x` plus 64 hex digits a transaction route, and `0x` plus 40 hex digits an address route, each exactly when its pattern holds. Anything else gives the alert. The route carries the input. |
| Search.Classify | src/components/Header.tsx:16-28 | The input is trimmed first. The trimmed text gives a block route exactly when it is all digits, a transaction route exactly when it is `0x` plus 64 hex digits, and an address route exactly when it is `0x` plus 40 hex digits. It is rejected exactly when none of these holds, and the route carries the trimmed text. |
| Search.ClassesDisjoint | src/components/Header.tsx:19-24 | The three patterns never overlap. |
| Search.BlankRejected | src/components/Header.tsx:25-26 | Empty or whitespace-only input is rejected. |
| Search.TrimPadded | src/components/Header.tsx:18 | Surrounding whitespace never changes what `trim` leaves. |
| Search.PaddingIgnored | src/components/Header.tsx:18 | Surrounding whitespace never changes the classification or the route. |
| Search.UpperPrefixRejected | src/components/Header.tsx:21 | An upper-case `0X` prefix is never accepted. |
| Search.MixedCaseAddress | src/components/Header.tsx:23 | Any 40 hex digits, in any case, after `0x` make an address. |
| Search.Navigate | src/components/Header.tsx:19-24 | A path is pushed exactly when the input is recognised: `/block/`, `/tx/` or `/address/` followed by the trimmed input. |
| MinerRank.InsertKeepsSorted | src/app/miner/rank/page.tsx:26 | Insertion into a rank-sorted list keeps it sorted. |
| MinerRank.SortByRank | src/app/miner/rank/page.tsx:26 | The result is sorted by ascending rank and is a permutation of the input. |
| MinerRank.Loaded | src/app/miner/rank/page.tsx:22-33 | On success the stored list is the sorted permutation. On failure the list is kept. Either way loading ends. |
| MinerRank.PagedMiners | src/app/miner/rank/page.tsx:37 | The page shows at most 10 rows: the elements from `page*10`, clipped to the list. |
| MinerRank.TotalPages | src/app/miner/rank/page.tsx:38 | The page count is `ceil(n/10)`. |
| MinerRank.Prev | src/app/miner/rank/page.tsx:96-99 | A click does nothing at page 0. Otherwise the page becomes `max(p-1, 0)`. The list is never touched. |
| MinerRank.Next | src/app/miner/rank/page.tsx:104-107 | The button is enabled only when `(page+1)*10 < n`. The new page then starts inside the list, and the list is never touched. |
| MinerRank.Step | src/app/miner/rank/page.tsx:22-107 | The load acts only while loading: it ends loading, keeps the page and stores the sorted permutation, or keeps the list on failure. A click never touches the list or the loading flag, and moves the page only when its button is enabled. |
| MinerRank.StepKeepsValid | src/app/miner/rank/page.tsx:96-107 | Every event keeps the pager invariant: the page is non-negative, and it lies inside a non-empty list. |
| MinerRank.RunValid | src/app/miner/rank/page.tsx:16-38 | Every state reachable from mount satisfies the invariant. |
| MinerRank.ReachablePageNonEmpty | src/app/miner/rank/page.tsx:103 | In a reachable state with miners, the current page is non-empty and "Page x of y" never passes y. |
| TransactionTable.JsRem | src/components/TransactionTable.tsx:32-33 | JavaScript `%` takes the sign of the dividend and differs from the dividend by a multiple of the divisor, which pins its value. It agrees with the mathematical remainder for non-negative dividends. |
| TransactionTable.SecondsAgo | src/components/TransactionTable.tsx:30 | The result is the whole seconds elapsed, rounded down. |
| TransactionTable.FormatAge | src/components/TransactionTable.tsx:29-35 | For a non-negative age, hours are in [0,24) and minutes in [0,60), and `T ≤ secondsAgo < T+60`. For a future timestamp `a` seconds ahead, each part is minus the ceiling of its quotient: days `-⌈a/86400⌉`, hours `-⌈(a mod 86400)/3600⌉` and minutes `-⌈(a mod 3600)/60⌉`. |
| TransactionTable.OneSecondAhead | src/components/TransactionTable.tsx:30-34 | A transaction one second ahead of the client clock reads "-1d -1h -1m ago", more than a day away from the truth. |
| TransactionTable.AgeRoundTrip | src/components/TransactionTable.tsx:31-33 | Decomposing an in-range age plus under a minute of seconds gives back that age. |
| TransactionTable.Truncate | src/components/TransactionTable.tsx:65 | The label is the first 10 characters and `...`, at most 13 characters. |
| TransactionTable.ToCellOf | src/components/TransactionTable.tsx:74-82 | The cell is "Contract Creation" exactly when `to` is falsy. Otherwise it links to `/address/<to>`. |
| TransactionTable.RowOf | src/components/TransactionTable.tsx:61-92 | A row exists exactly when `hash` and `from` are present. Each of its cells is built from that transaction. |
| TransactionTable.Rows | src/components/TransactionTable.tsx:61 | There is one row per transaction, in order. |
| TransactionTable.RowsAppend | src/components/TransactionTable.tsx:61 | Rendering a list in two parts renders each part on its own. |
| TransactionTable.Render | src/components/TransactionTable.tsx:37-46 | The view is loading exactly while loading. It is "No transactions found." exactly for an empty list. Otherwise it shows one row per transaction, in order, or fails to render when a stored transaction lacks `hash` or `from`. |
| TransactionTable.Fetched | src/components/TransactionTable.tsx:12-21 | A delivered list replaces the stored one. A thrown fetch keeps it. Loading ends either way. |
| TransactionTable.FailedPollShowsEmpty | src/components/TransactionTable.tsx:14-15 | Every failed response is swallowed into the empty page, so after it the table shows "No transactions found." whatever it showed before. |
| TransactionTable.PollShowsPage | src/components/TransactionTable.tsx:12-46 | After any poll the table shows only the fetched page: never loading, the empty message for an empty page, and one row per transaction for a renderable page. |
| TxDetail.GasFee | src/components/TxDetailClient.tsx:30-32 | The fee is the exact product of `gasUsed` and `gasPrice`, a missing factor giving 0. It is 0 exactly when a factor is 0 or missing. |
| TxDetail.StatusOf | src/components/TxDetailClient.tsx:43-45 | The label is "Success" exactly when the status is 1. |
| TxDetail.ViewOf | src/components/TxDetailClient.tsx:16-27 | An empty hash never leaves loading. A missing tx or receipt shows "not found". Otherwise the detail shows the hash, fee and status. |
| TxDetail.SettledShowsDetail | src/components/TxDetailClient.tsx:26-45 | A settled fetch for a non-empty hash with both parts present shows the hash, the exact product fee and "Success" exactly for status 1. |
| TxDetail.FeeRecoversGasUsed | src/components/TxDetailClient.tsx:30-32 | With a positive gas price the fee shown is a multiple of it, and dividing the fee by it gives back the gas used. |
| Dashboard.FetchBlocks | src/app/api/Dashboard/route.ts:12-14 | The call succeeds exactly when every one of the `n` blocks resolves non-null. Element k is block `latest - k`. |
| Dashboard.GasSum | src/app/api/Dashboard/route.ts:16 | No block's gas exceeds the sum. The sum is 0 exactly when every block's gas is 0 or missing. |
| Dashboard.GasSumAppend | src/app/api/Dashboard/route.ts:16 | The gas sum is additive over runs of blocks, a missing `gasUsed` adding nothing. |
| Dashboard.GasPerSecond | src/app/api/Dashboard/route.ts:17-18 | The rate is 0 when `timeDelta ≤ 0`. Otherwise it is the rounded quotient r, with `r - 1/2 ≤ sum/delta < r + 1/2`. |
| Dashboard.TxCount | src/app/api/Dashboard/route.ts:26 | No block has more transactions than the total. The total is 0 exactly when every block is empty. |
| Dashboard.TxCountIsHashCount | src/app/api/Dashboard/route.ts:26 | `transactionCount` is the number of hashes the loop visits. |
| Dashboard.CountTransactions | src/app/api/Dashboard/route.ts:29-40 | The call fails exactly when a lookup rejects. Otherwise the contract count and the address set equal the reference fold over the visited transactions. |
| Dashboard.CreationsPlusRecipients | src/app/api/Dashboard/route.ts:35-37 | Creations plus transactions with a `to` equals the non-null transactions. |
| Dashboard.AddressMembership | src/app/api/Dashboard/route.ts:37-38 | An address is counted iff some non-null transaction was sent from it or, as recipient, to it, compared in lower case. |
| Dashboard.AddressesLowerCase | src/app/api/Dashboard/route.ts:37-38 | Every counted address is lower case, so case variants count once. |
| Dashboard.CountsBounded | src/app/api/Dashboard/route.ts:32-40 | Addresses plus creations never exceed twice the non-null transactions. |
| Dashboard.Get | src/app/api/Dashboard/route.ts:7-60 | Status `'1'` is returned exactly when no call fails. It comes with HTTP 200, `blockNumber = epochNumber = latest` and the reference statistics. Otherwise the reply is HTTP 500 with status `'0'` and a null result. |
| ChartSection.FetchChartData | src/components/ChartSection.tsx:19-26 | A thrown fetch or a status-`'1'` body without a list rejects. Status `'1'` gives the list reversed, and any other status gives `[]`. |
| ChartSection.ServeRoundTrip | src/components/ChartSection.tsx:22-23 | The chart shows exactly the series the API listed newest first, oldest first. |
| ChartSection.FetchKeepsEntries | src/components/ChartSection.tsx:23 | The chart has the same entries as the list, with multiplicity. |
| ChartSection.Receive | src/components/ChartSection.tsx:33-36 | A resolved fetch replaces the series. A rejected one leaves it. |
| ChartSection.Mount | src/components/ChartSection.tsx:32-37 | Each series holds its own fetch's resolved list, and stays empty when that fetch rejects. |
| ChartSection.FailureIsolated | src/components/ChartSection.tsx:32-37 | A failing series stays empty and does not affect the other. |
| ChartSection.Tick | src/components/ChartSection.tsx:67 | A tick has at most 5 characters, the date's characters from position 5 on. It is exactly positions 5 to 9 for a date of 10 or more characters, and empty for 5 or fewer. |
| ChartSection.TickOfIsoDate | src/components/ChartSection.tsx:106 | On `YYYY-MM-DD…` the tick is `MM-DD`. |
| TokenTable.Icon | src/components/TokenTable.tsx:31 | The icon is never empty. A missing or empty `iconUrl` falls back to `/0g-logos.png`. |
| TokenTable.FormatUsd | src/components/TokenTable.tsx:11-12 | The result is `'-'` exactly when the value is null. Otherwise it is `$` followed by the two-decimal locale text. |
| TokenTable.Abbreviate | src/components/TokenTable.tsx:36 | The result is the first 6 characters, `...`, then the last 4 characters, with `slice` clamping for short input: an address under 6 characters is shown whole, then `...`, then its last 4 characters (whole again when under 4). An address of at least 10 characters gives 13 characters. |
| TokenTable.Rows | src/components/TokenTable.tsx:28-49 | There is one row per token, in order. |
| TokenTable.RowOf | src/components/TokenTable.tsx:29-47 | The row shows the icon with its fallback, the token's name and symbol, and a link to `/token/<address>`. It shows the abbreviated contract and the amount in the default locale text. Price and value are `'-'` exactly when missing, else `$` and the two-decimal text. |
| TokenTable.RowsAppend | src/components/TokenTable.tsx:28 | Rendering a list in two parts renders each part on its own. |
| TokenTable.LinksIdentifyTokens | src/components/TokenTable.tsx:35 | Two rows link to the same page exactly when their tokens have the same address. |

## Left out

- Network I/O:
  - `fetch` and the ethers provider are inputs or oracles.
  - Concurrency inside `Promise.all` is reduced to "all resolve, or the call rejects".
  - The dashboard's two block rounds are separate oracles, because they are separate calls.
- React lifecycle: effects, the 3-second polling interval and rendering markup are not modelled. `Date.now()` is a parameter.
- Floating-point display maths is not modelled: the `/1e18` and `/1e9` conversions, `toFixed`, the win percentage, and the chart y-axis formatters.
- Dashboard.GasPerSecond: computed exactly on integers. The `Number()` conversion of very large gas sums, and its precision loss, is not modelled.
- Locale formatting: `toLocaleString` becomes the token table's two oracles from number to text, one for the default `toLocaleString()` of the amount and one for the two-decimal text of the USD cells.
- TxDetail.ViewOf: the fee is kept as the exact integer in wei. Its `formatEther` text is not modelled.
- RpcBlocks.PointOf: the point's `toLocaleTimeString` time label is not modelled; a point has only its block number and transaction count.
- Strings are sequences of code points, while JavaScript's `slice` and `length` count UTF-16 code units. This matters to `Js.Slice`, `TransactionTable.Truncate`, `TokenTable.Abbreviate` and `ChartSection.Tick` only for text outside the Basic Multilingual Plane. The hashes, addresses and ISO dates they are applied to are ASCII.
- RpcBlocks.RecentTransactions: takes the elements of `block.transactions` to be transaction objects, as the filter expects. The ethers v6 provider returns hash strings there (see Findings), and the as-written behaviour is `RpcBlocks.WalkBlocksAsWritten`.
- Js.Lower: only ASCII letters are lower-cased. Hex and native addresses are ASCII.
- MinerRank.SortByRank: states sortedness and permutation but not stability. The comparator `a.rank - b.rank` is modelled as an integer comparison.
- TransactionTable.FormatAge: returns the three numbers. The `${d}d ${h}h ${m}m ago` string template is not modelled. For a future timestamp the parts are stated exactly, but `T ≤ secondsAgo < T+60` does not hold there (see `TransactionTable.OneSecondAhead`).
- Dashboard.CountTransactions: the nested loops over blocks and hashes are flattened to one loop over the hashes in the same visiting order.
- Plain pass-through fetch helpers have no logic beyond returning `json.result` or a bare default: `getLatestBlockNumber`, `getBlockByNumber`, `getLatestBlocks`, `getTransactionWithReceipt`, `getAddressDetail`, `getTokenContractDetail`, `getTokenByAddress`, `getTokenHolders`, `getTokenTransfers`, `getTokenDailyStats`, `getNetworkDashboard`, `getLatestPlotStats`, `getGasPriceInfo`, `getBlockByHash`, `getBlockDetailByHash` and `getBlockDetailByNumber`.
- JavaScript `NaN`, and values of unexpected runtime types (for example a non-array `list`), are not modelled. Fields are taken at their declared types.

## Findings

| source | as written | input that shows it | evidently intended | confidence | as-written member | corrected member |
|---|---|---|---|---|---|---|
| src/lib/rpc.ts:38-42 | `getBlock(n, true)` of the ethers v6 provider lists hash strings in `block.transactions`, and the filter asks each element for a string `hash`, which a string does not have. So nothing is kept: the walk fetches all 100 blocks and returns `[]`. | `txCount = 10` and a block `latest` whose `transactions` is `["0x5c…"]` | keep the prefetched transaction objects that have a string `hash` and `from` | medium, inferred from the ethers v6 `Block` type; not executed | RpcBlocks.WalkBlocksAsWritten | RpcBlocks.RecentTransactions |

=== FILE: chart_section.dfy ===
/** The two daily charts of src/components/ChartSection.tsx: each series is fetched from
    the statistics API, reversed so the oldest day comes first, stored in its own state,
    and its x-axis ticks show the month and day of the ISO date. */
module ChartSection {
  import opened Wrappers
  import opened Js

  /** One point of a series. */
  datatype ChartEntry = ChartEntry(statTime: string, count: int)

  /** `json.result` of the statistics API; only its `list` is read. */
  datatype ChartResult = ChartResult(list: Option<seq<ChartEntry>>)

  /** The parsed body: its `status` and its `result`. */
  datatype ChartBody = ChartBody(status: Option<string>, result: Option<ChartResult>)

  /** The `status === '1'` guard. */
  predicate Listed(body: ChartBody) {
    body.status == Some("1")
  }

  /** `fetchChartData(url)`: the response's `ok` flag is not consulted. A thrown fetch or
      body, a null body, or a status-`'1'` body without `result.list` rejects; a
      status-`'1'` body gives its list reversed; any other body gives `[]`. */
  function FetchChartData(resp: Fetched<Option<ChartBody>>): (r: Settled<seq<ChartEntry>>)
    ensures r.Rejected? <==>
              resp.Threw? || resp.body.None? ||
              (Listed(resp.body.value) && (resp.body.value.result.None? || resp.body.value.result.value.list.None?))
    ensures resp.Http? && resp.body.Some? && !Listed(resp.body.value) ==> r == Resolved([])
    ensures r.Resolved? && Listed(resp.body.value) ==>
              var list := resp.body.value.result.value.list.value;
              |r.value| == |list| && forall i :: 0 <= i < |list| ==> r.value[i] == list[|list| - 1 - i]
  {
    if resp.Threw? || resp.body.None? then Rejected
    else
      var body := resp.body.value;
      if Listed(body) then
        if body.result.None? || body.result.value.list.None? then Rejected
        else Resolved(Reverse(body.result.value.list.value))
      else Resolved([])
  }

  /** The API body that lists `series` newest first, as the statistics API does. */
  function Serve(series: seq<ChartEntry>): (r: Fetched<Option<ChartBody>>)
    ensures r.Http? && r.body.Some? && Listed(r.body.value)
  {
    Http(true, Some(ChartBody(Some("1"), Some(ChartResult(Some(Reverse(series)))))))
  }

  /** The chart shows exactly the series the API listed in reverse, oldest day first. */
  lemma ServeRoundTrip(series: seq<ChartEntry>)
    ensures FetchChartData(Serve(series)) == Resolved(series)
  {
    ReverseInvolution(series);
  }

  /** The reversal neither drops nor duplicates a day. */
  lemma FetchKeepsEntries(body: ChartBody)
    requires Listed(body) && body.result.Some? && body.result.value.list.Some?
    ensures FetchChartData(Http(true, Some(body))).Resolved?
    ensures multiset(FetchChartData(Http(true, Some(body))).value) == multiset(body.result.value.list.value)
  {
    ReversePermutes(body.result.value.list.value);
  }

  /** `.then(setData)`: a resolved fetch replaces the series, a rejected one never
      reaches the setter. */
  function Receive(current: seq<ChartEntry>, r: Settled<seq<ChartEntry>>): (next: seq<ChartEntry>)
    ensures r.Rejected? ==> next == current
    ensures r.Resolved? ==> next == r.value
  {
    if r.Resolved? then r.value else current
  }

  /** The component's two series. */
  datatype Charts = Charts(txnData: seq<ChartEntry>, accountData: seq<ChartEntry>)

  /** The mount effect: both series start empty and each takes its own fetch's outcome. */
  function Mount(txnResp: Fetched<Option<ChartBody>>, accountResp: Fetched<Option<ChartBody>>): (r: Charts)
    ensures FetchChartData(txnResp).Rejected? ==> r.txnData == []
    ensures FetchChartData(txnResp).Resolved? ==> r.txnData == FetchChartData(txnResp).value
    ensures FetchChartData(accountResp).Rejected? ==> r.accountData == []
    ensures FetchChartData(accountResp).Resolved? ==> r.accountData == FetchChartData(accountResp).value
  {
    Charts(Receive([], FetchChartData(txnResp)), Receive([], FetchChartData(accountResp)))
  }

  /** A failing series leaves its chart empty whatever happens to the other one. */
  lemma FailureIsolated(txnResp: Fetched<Option<ChartBody>>, accountResp: Fetched<Option<ChartBody>>)
    requires FetchChartData(txnResp).Rejected?
    ensures Mount(txnResp, accountResp).txnData == []
    ensures Mount(txnResp, accountResp).accountData == Mount(Threw, accountResp).accountData
  {
  }

  /** The x-axis tick: `date.slice(5, 10)`, at most five characters. */
  function Tick(date: string): (r: string)
    ensures |r| <= 5
    ensures |date| >= 10 ==> r == date[5..10]
    ensures |date| <= 5 ==> r == []
    ensures |r| == (if |date| <= 5 then 0 else if |date| >= 10 then 5 else |date| - 5)
    ensures forall i :: 0 <= i < |r| ==> r[i] == date[5 + i]
  {
    Slice(date, 5, 10)
  }

  /** On an ISO date `YYYY-MM-DD…` the tick is `MM-DD`. */
  lemma TickOfIsoDate(year: string, monthDay: string, rest: string)
    requires |year| == 4 && |monthDay| == 5
    ensures Tick(year + "-" + monthDay + rest) == monthDay
  {
    var d := year + "-" + monthDay + rest;
    assert d[5..10] == monthDay;
  }
}

=== FILE: dashboard.dfy ===
/** The dashboard statistics endpoint of src/app/api/Dashboard/route.ts: gas throughput
    over the last 10 blocks, the transaction count of the last 100 blocks, and the
    distinct addresses and contract creations among those transactions. Every provider
    call is an oracle; any rejection, or a null block, turns the reply into the 500
    error. */
module Dashboard {
  import opened Wrappers
  import opened Js

  /** The fields of `provider.getBlock(n)` the endpoint reads: `gasUsed` (None when
      missing), the timestamp in seconds, and the transaction hashes. */
  datatype DashBlock = DashBlock(gasUsed: Option<nat>, timestamp: int, transactions: seq<string>)

  /** `provider.getBlock(n)` for one of the two rounds of block fetches. */
  type BlockSource = int -> Settled<Option<DashBlock>>

  /** The fields of `provider.getTransaction(hash)` the endpoint reads. */
  datatype DashTx = DashTx(from: string, to: Option<string>)

  /** `provider.getTransaction(hash)`: rejects, or resolves to a transaction or null. */
  type TxSource = string -> Settled<Option<DashTx>>

  const GasBlocks: nat := 10
  const TxBlocks: nat := 100

  /** A fetched block the endpoint can read: resolved and not null. */
  predicate Present(b: Settled<Option<DashBlock>>) {
    b.Resolved? && b.value.Some?
  }

  /** The block a round fetches at index `k`: `getBlock(latest - k)`. */
  function BlockAt(source: BlockSource, latest: int, k: nat): Settled<Option<DashBlock>> {
    source(latest - k)
  }

  /** `Promise.all` of `getBlock(latest - i)` for `i < n`, every block then dereferenced:
      None when any fetch rejects or resolves to null (the dereference throws). */
  function FetchBlocks(source: BlockSource, latest: int, n: nat): (r: Option<seq<DashBlock>>)
    ensures r.Some? <==> forall k :: 0 <= k < n ==> Present(BlockAt(source, latest, k))
    ensures r.Some? ==> |r.value| == n
    ensures r.Some? ==> forall k :: 0 <= k < n ==> r.value[k] == BlockAt(source, latest, k).value.value
  {
    if forall k :: 0 <= k < n ==> Present(BlockAt(source, latest, k)) then
      Some(seq(n, k requires 0 <= k < n && Present(BlockAt(source, latest, k)) => BlockAt(source, latest, k).value.value))
    else None
  }

  /** `blocks.reduce((sum, b) => sum + BigInt(b.gasUsed?.toString() || '0'), 0n)`. */
  function GasSum(blocks: seq<DashBlock>): (r: nat)
    ensures forall i :: 0 <= i < |blocks| ==> blocks[i].gasUsed.GetOr(0) <= r
    ensures r == 0 <==> forall i :: 0 <= i < |blocks| ==> blocks[i].gasUsed.GetOr(0) == 0
  {
    if blocks == [] then 0 else GasSum(blocks[..|blocks| - 1]) + blocks[|blocks| - 1].gasUsed.GetOr(0)
  }

  /** The gas sum is additive over consecutive runs of blocks, a block without
      `gasUsed` adding nothing. */
  lemma {:induction false} GasSumAppend(a: seq<DashBlock>, b: seq<DashBlock>)
    ensures GasSum(a + b) == GasSum(a) + GasSum(b)
  {
    if b == [] {
      assert a + b == a;
    } else {
      assert (a + b)[..|a + b| - 1] == a + b[..|b| - 1];
      GasSumAppend(a, b[..|b| - 1]);
    }
  }

  /** `Math.round(gasUsedSum / timeDelta)` when the window spans time, else 0: the
      nearest whole number of gas per second, a half rounding up. */
  function GasPerSecond(gasUsedSum: nat, timeDelta: int): (r: nat)
    ensures timeDelta <= 0 ==> r == 0
    ensures timeDelta > 0 ==>
              2 * timeDelta * r <= 2 * gasUsedSum + timeDelta < 2 * timeDelta * r + 2 * timeDelta
  {
    if timeDelta <= 0 then 0
    else
      var d := 2 * timeDelta;
      var x := 2 * gasUsedSum + timeDelta;
      assert x == d * (x / d) + x % d;
      x / d
  }

  /** `txBlocks.reduce((sum, b) => sum + b.transactions.length, 0)`. */
  function TxCount(blocks: seq<DashBlock>): (r: nat)
    ensures forall i :: 0 <= i < |blocks| ==> |blocks[i].transactions| <= r
    ensures r == 0 <==> forall i :: 0 <= i < |blocks| ==> blocks[i].transactions == []
  {
    if blocks == [] then 0 else TxCount(blocks[..|blocks| - 1]) + |blocks[|blocks| - 1].transactions|
  }

  /** The hashes the counting loop visits: block by block, newest first, each block's
      transactions in order. */
  function AllHashes(blocks: seq<DashBlock>): seq<string> {
    if blocks == [] then [] else AllHashes(blocks[..|blocks| - 1]) + blocks[|blocks| - 1].transactions
  }

  /** `transactionCount` is the number of hashes the loop visits, whatever their
      `getTransaction` later returns. */
  lemma {:induction false} TxCountIsHashCount(blocks: seq<DashBlock>)
    ensures TxCount(blocks) == |AllHashes(blocks)|
  {
    if blocks != [] {
      TxCountIsHashCount(blocks[..|blocks| - 1]);
    }
  }

  // ---------------------------------------------------------------- the counting loop

  /** A resolved lookup's transaction; a rejected one stands for nothing. */
  function Settle(s: Settled<Option<DashTx>>): Option<DashTx> {
    if s.Resolved? then s.value else None
  }

  /** The transactions the loop sees, one per hash. */
  function TxsOf(hashes: seq<string>, getTx: TxSource): (r: seq<Option<DashTx>>)
    ensures |r| == |hashes|
    ensures forall i :: 0 <= i < |hashes| ==> r[i] == Settle(getTx(hashes[i]))
  {
    seq(|hashes|, i requires 0 <= i < |hashes| => Settle(getTx(hashes[i])))
  }

  /** The non-null transactions. */
  function NonNull(txs: seq<Option<DashTx>>): nat {
    if txs == [] then 0 else NonNull(txs[..|txs| - 1]) + (if txs[|txs| - 1].Some? then 1 else 0)
  }

  /** A non-null transaction without a recipient (`!tx.to`): a contract creation. */
  predicate IsCreation(t: Option<DashTx>) {
    t.Some? && !TruthyStr(t.value.to)
  }

  /** The contract creations among `txs`. */
  function Creations(txs: seq<Option<DashTx>>): nat {
    if txs == [] then 0 else Creations(txs[..|txs| - 1]) + (if IsCreation(txs[|txs| - 1]) then 1 else 0)
  }

  /** The non-null transactions that have a recipient. */
  function WithRecipient(txs: seq<Option<DashTx>>): nat {
    if txs == [] then 0
    else WithRecipient(txs[..|txs| - 1]) + (if txs[|txs| - 1].Some? && TruthyStr(txs[|txs| - 1].value.to) then 1 else 0)
  }

  /** Every non-null transaction is either a creation or has a recipient, never both. */
  lemma {:induction false} CreationsPlusRecipients(txs: seq<Option<DashTx>>)
    ensures Creations(txs) + WithRecipient(txs) == NonNull(txs)
  {
    if txs != [] {
      CreationsPlusRecipients(txs[..|txs| - 1]);
    }
  }

  /** What one transaction adds to the address set: the lower-cased recipient when it
      has one, and the lower-cased sender. */
  function AddressesOf(t: Option<DashTx>): set<string> {
    if t.None? then {}
    else (if TruthyStr(t.value.to) then {Lower(t.value.to.value)} else {}) + {Lower(t.value.from)}
  }

  /** The set `uniqueAddresses` holds after the loop has seen `txs`. */
  function Addresses(txs: seq<Option<DashTx>>): set<string> {
    if txs == [] then {} else Addresses(txs[..|txs| - 1]) + AddressesOf(txs[|txs| - 1])
  }

  /** What the counting loop produces. */
  datatype Tally = Tally(contracts: nat, addresses: set<string>)

  /** The nested `for` loops over the blocks' hashes (flattened here to the same visiting
      order): each hash is looked up in turn, a null transaction is skipped, a creation is
      counted, and the addresses are added in lower case. A rejected lookup aborts the
      whole loop. */
  method CountTransactions(hashes: seq<string>, getTx: TxSource) returns (r: Option<Tally>)
    ensures r.None? <==> exists i :: 0 <= i < |hashes| && getTx(hashes[i]).Rejected?
    ensures r.Some? ==> r.value.contracts == Creations(TxsOf(hashes, getTx))
    ensures r.Some? ==> r.value.addresses == Addresses(TxsOf(hashes, getTx))
  {
    ghost var txs := TxsOf(hashes, getTx);
    var contracts: nat := 0;
    var addresses: set<string> := {};
    var i := 0;
    while i < |hashes|
      invariant 0 <= i <= |hashes|
      invariant forall j :: 0 <= j < i ==> getTx(hashes[j]).Resolved?
      invariant contracts == Creations(txs[..i])
      invariant addresses == Addresses(txs[..i])
    {
      var tx := getTx(hashes[i]);
      if tx.Rejected? {
        return None;
      }
      assert txs[..i + 1][..i] == txs[..i];
      assert txs[i] == tx.value;
      if tx.value.Some? {
        var t := tx.value.value;
        if !TruthyStr(t.to) {
          contracts := contracts + 1;
        } else {
          addresses := addresses + {Lower(t.to.value)};
        }
        addresses := addresses + {Lower(t.from)};
      }
      i := i + 1;
    }
    assert txs[..i] == txs;
    return Some(Tally(contracts, addresses));
  }

  /** An address is counted exactly when some non-null transaction sent from it or, not
      being a creation, went to it, compared in lower case. */
  lemma {:induction false} AddressMembership(txs: seq<Option<DashTx>>, a: string)
    ensures a in Addresses(txs) <==>
              exists i :: 0 <= i < |txs| && txs[i].Some? &&
                (a == Lower(txs[i].value.from) || (TruthyStr(txs[i].value.to) && a == Lower(txs[i].value.to.value)))
  {
    if txs != [] {
      var p := txs[..|txs| - 1];
      AddressMembership(p, a);
      if a in Addresses(p) {
        var i :| 0 <= i < |p| && p[i].Some? &&
                 (a == Lower(p[i].value.from) || (TruthyStr(p[i].value.to) && a == Lower(p[i].value.to.value)));
        assert txs[i] == p[i];
      }
      if exists i :: 0 <= i < |txs| && txs[i].Some? &&
           (a == Lower(txs[i].value.from) || (TruthyStr(txs[i].value.to) && a == Lower(txs[i].value.to.value))) {
        var i :| 0 <= i < |txs| && txs[i].Some? &&
                 (a == Lower(txs[i].value.from) || (TruthyStr(txs[i].value.to) && a == Lower(txs[i].value.to.value)));
        if i < |p| {
          assert p[i] == txs[i];
        }
      }
    }
  }

  /** Every counted address is in lower case, so case variants of one address count once. */
  lemma {:induction false} AddressesLowerCase(txs: seq<Option<DashTx>>)
    ensures forall a :: a in Addresses(txs) ==> Lower(a) == a
  {
    if txs != [] {
      AddressesLowerCase(txs[..|txs| - 1]);
      var t := txs[|txs| - 1];
      if t.Some? {
        LowerIdempotent(t.value.from);
        if TruthyStr(t.value.to) {
          LowerIdempotent(t.value.to.value);
        }
      }
    }
  }

  /** Each non-null transaction adds at most two addresses, and a creation at most one:
      the address count plus the creation count never exceeds twice the non-null count,
      and the creations never exceed the non-null transactions. */
  lemma {:induction false} CountsBounded(txs: seq<Option<DashTx>>)
    ensures Creations(txs) <= NonNull(txs)
    ensures |Addresses(txs)| + Creations(txs) <= 2 * NonNull(txs)
  {
    if txs != [] {
      var p := txs[..|txs| - 1];
      CountsBounded(p);
      var t := txs[|txs| - 1];
      UnionBound(Addresses(p), AddressesOf(t));
      if t.Some? && TruthyStr(t.value.to) {
        UnionBound({Lower(t.value.to.value)}, {Lower(t.value.from)});
      }
    }
  }

  /** A union has no more elements than its two parts together. */
  lemma UnionBound(a: set<string>, b: set<string>)
    ensures |a + b| <= |a| + |b|
  {
    assert |a + b| == |a| + |b| - |a * b|;
  }

  // ---------------------------------------------------------------- the reply

  /** The `result` object of a successful reply. */
  datatype Stats = Stats(addressCount: nat, transactionCount: nat, contractCount: nat,
                         epochNumber: int, blockNumber: int, gasUsedPerSecond: nat)

  /** The HTTP reply: its status code and the JSON body's three fields. */
  datatype Reply = Reply(httpStatus: nat, status: string, message: string, result: Option<Stats>)

  /** The `catch` branch: HTTP 500 with status `'0'` and a null result. */
  const ErrorReply: Reply := Reply(500, "0", "Error fetching data", None)

  /** The conditions under which no call throws: the block number resolves, both rounds
      of block fetches give only non-null blocks, and no transaction lookup rejects. */
  predicate Answers(latest: Settled<int>, gasRound: BlockSource, txRound: BlockSource, getTx: TxSource) {
    && latest.Resolved?
    && FetchBlocks(gasRound, latest.value, GasBlocks).Some?
    && FetchBlocks(txRound, latest.value, TxBlocks).Some?
    && forall h :: h in AllHashes(FetchBlocks(txRound, latest.value, TxBlocks).value) ==> getTx(h).Resolved?
  }

  /** `GET /api/Dashboard`. `latest` is `getBlockNumber()`; the two `Promise.all` rounds
      of `getBlock` are separate calls and so separate oracles. On success the reply is a
      200 with status `'1'` whose statistics are the reference counts over the 100-block
      window and the rounded gas rate over the 10-block window, newest timestamp minus
      oldest; on any failure it is the 500 error. */
  method Get(latest: Settled<int>, gasRound: BlockSource, txRound: BlockSource, getTx: TxSource)
    returns (reply: Reply)
    ensures reply.httpStatus == 200 || reply.httpStatus == 500
    ensures reply.status == "1" <==> Answers(latest, gasRound, txRound, getTx)
    ensures reply.status != "1" ==> reply == ErrorReply
    ensures reply.status == "1" ==>
              reply.httpStatus == 200 && reply.message == "" && reply.result.Some? &&
              reply.result.value.blockNumber == latest.value && reply.result.value.epochNumber == latest.value
    ensures reply.status == "1" ==>
              var gb := FetchBlocks(gasRound, latest.value, GasBlocks).value;
              var hs := AllHashes(FetchBlocks(txRound, latest.value, TxBlocks).value);
              var s := reply.result.value;
              && s.gasUsedPerSecond == GasPerSecond(GasSum(gb), gb[0].timestamp - gb[GasBlocks - 1].timestamp)
              && s.transactionCount == |hs|
              && s.contractCount == Creations(TxsOf(hs, getTx))
              && s.addressCount == |Addresses(TxsOf(hs, getTx))|
  {
    if latest.Rejected? {
      return ErrorReply;
    }
    var n := latest.value;
    var blocks := FetchBlocks(gasRound, n, GasBlocks);
    if blocks.None? {
      return ErrorReply;
    }
    var gb := blocks.value;
    var gasUsedSum := GasSum(gb);
    var timeDelta := gb[0].timestamp - gb[|gb| - 1].timestamp;
    var gasUsedPerSecond := GasPerSecond(gasUsedSum, timeDelta);
    var txBlocks := FetchBlocks(txRound, n, TxBlocks);
    if txBlocks.None? {
      return ErrorReply;
    }
    var transactionCount := TxCount(txBlocks.value);
    TxCountIsHashCount(txBlocks.value);
    var hs := AllHashes(txBlocks.value);
    var tally := CountTransactions(hs, getTx);
    if tally.None? {
      return ErrorReply;
    }
    var stats := Stats(|tally.value.addresses|, transactionCount, tally.value.contracts, n, n, gasUsedPerSecond);
    return Reply(200, "1", "", Some(stats));
  }
}

=== FILE: js.dfy ===
/** The few JavaScript built-ins the explorer's logic leans on, with their exact
    semantics on the values the model uses. */
module Js {
  import opened Wrappers

  /** Truthiness of an optional string: `undefined`, `null` and `""` are falsy. */
  predicate TruthyStr(v: Option<string>) {
    v.Some? && v.value != ""
  }

  /** Truthiness of an optional number: `undefined`, `null` and `0` are falsy
      (NaN is not modelled). */
  predicate TruthyNum(v: Option<int>) {
    v.Some? && v.value != 0
  }

  /** `v || d` on a string-valued field. */
  function OrStr(v: Option<string>, d: string): string {
    if TruthyStr(v) then v.value else d
  }

  /** `v || d` on a number-valued field. */
  function OrNum(v: Option<int>, d: int): int {
    if TruthyNum(v) then v.value else d
  }

  /** `s.startsWith(p)`. */
  predicate StartsWith(s: string, p: string) {
    |p| <= |s| && s[..|p|] == p
  }

  /** How `slice` turns a relative index into a position in a sequence of length `len`:
      negative indices count from the end, and both ends are clamped. */
  function RelativeIndex(i: int, len: nat): (r: nat)
    ensures r <= len
    ensures 0 <= i <= len ==> r == i
    ensures i > len ==> r == len
    ensures i < 0 && 0 <= len + i ==> r == len + i
    ensures len + i < 0 ==> r == 0
  {
    if i < 0 then (if len + i < 0 then 0 else len + i)
    else if i > len then len
    else i
  }

  /** `s.slice(start, end)` on strings and arrays. */
  function Slice<T>(s: seq<T>, start: int, end: int): (r: seq<T>)
    ensures |r| <= |s|
    ensures RelativeIndex(start, |s|) <= RelativeIndex(end, |s|) ==>
              |r| == RelativeIndex(end, |s|) - RelativeIndex(start, |s|)
    ensures RelativeIndex(start, |s|) >= RelativeIndex(end, |s|) ==> r == []
    ensures forall i :: 0 <= i < |r| ==> r[i] == s[RelativeIndex(start, |s|) + i]
  {
    var a := RelativeIndex(start, |s|);
    var b := RelativeIndex(end, |s|);
    if a < b then s[a..b] else []
  }

  /** `a.reverse()` (the in-place reversal, read as a value). */
  function Reverse<T>(s: seq<T>): (r: seq<T>)
    ensures |r| == |s|
    ensures forall i :: 0 <= i < |s| ==> r[i] == s[|s| - 1 - i]
  {
    if s == [] then [] else Reverse(s[1..]) + [s[0]]
  }

  /** Reversing twice gives back the original array. */
  lemma ReverseInvolution<T>(s: seq<T>)
    ensures Reverse(Reverse(s)) == s
  {
    var r := Reverse(Reverse(s));
    assert |r| == |s|;
    forall i | 0 <= i < |s|
      ensures r[i] == s[i]
    {
      assert r[i] == Reverse(s)[|s| - 1 - i];
    }
  }

  /** Reversal keeps every element with its multiplicity. */
  lemma {:induction false} ReversePermutes<T>(s: seq<T>)
    ensures multiset(Reverse(s)) == multiset(s)
  {
    if s != [] {
      ReversePermutes(s[1..]);
      assert s == [s[0]] + s[1..];
    }
  }

  /** `c.toLowerCase()` on the ASCII letters (hex addresses are ASCII). */
  function LowerChar(c: char): char {
    if 'A' <= c <= 'Z' then (c as int + 32) as char else c
  }

  /** `s.toLowerCase()` on ASCII text. */
  function Lower(s: string): (r: string)
    ensures |r| == |s|
    ensures forall i :: 0 <= i < |s| ==> r[i] == LowerChar(s[i])
    ensures forall i :: 0 <= i < |s| && 'A' <= s[i] <= 'Z' ==> r[i] as int == s[i] as int + 32
    ensures forall i :: 0 <= i < |s| && !('A' <= s[i] <= 'Z') ==> r[i] == s[i]
    ensures forall i :: 0 <= i < |r| ==> !('A' <= r[i] <= 'Z')
  {
    seq(|s|, i requires 0 <= i < |s| => LowerChar(s[i]))
  }

  /** Lower-casing is idempotent, so a lower-cased key is its own canonical form. */
  lemma LowerIdempotent(s: string)
    ensures Lower(Lower(s)) == Lower(s)
  {
  }
}

=== FILE: miner_rank.dfy ===
/** The miner leaderboard page of src/app/miner/rank/page.tsx: the fetched list is
    sorted by the server's `rank` field, shown ten rows at a time, and paged with
    Previous/Next buttons. The page is a small state machine over (list, loading, page). */
module MinerRank {
  import opened Js

  /** One leaderboard row as the server sends it. */
  datatype Miner = Miner(rank: int, miner: string, totalReward: string, winCount: int, miningAttempts: int)

  /** Rows per page. */
  const PageSize: nat := 10

  /** Ascending by `rank`. */
  predicate SortedByRank(s: seq<Miner>) {
    forall i, j :: 0 <= i < j < |s| ==> s[i].rank <= s[j].rank
  }

  /** Inserts `m` before the first row whose rank is not smaller, so that rows of equal
      rank keep their order. */
  function InsertByRank(m: Miner, s: seq<Miner>): (r: seq<Miner>)
    ensures multiset(r) == multiset(s) + multiset{m}
    ensures |r| == |s| + 1
  {
    if s == [] || m.rank <= s[0].rank then
      [m] + s
    else
      assert s == [s[0]] + s[1..];
      [s[0]] + InsertByRank(m, s[1..])
  }

  /** Insertion into a sorted list keeps it sorted. */
  lemma {:induction false} InsertKeepsSorted(m: Miner, s: seq<Miner>)
    requires SortedByRank(s)
    ensures SortedByRank(InsertByRank(m, s))
  {
    if s != [] && m.rank > s[0].rank {
      InsertKeepsSorted(m, s[1..]);
      var rest := InsertByRank(m, s[1..]);
      forall k | 0 <= k < |rest|
        ensures s[0].rank <= rest[k].rank
      {
        assert rest[k] in multiset(rest);
        if rest[k] != m {
          assert rest[k] in multiset(s[1..]);
          var j :| 0 <= j < |s[1..]| && s[1..][j] == rest[k];
          assert s[j + 1] == rest[k];
        }
      }
    }
  }

  /** `list.sort((a, b) => a.rank - b.rank)`: a stable sort by ascending rank. */
  function SortByRank(s: seq<Miner>): (r: seq<Miner>)
    ensures SortedByRank(r)
    ensures multiset(r) == multiset(s)
  {
    if s == [] then []
    else
      assert s == [s[0]] + s[1..];
      var rest := SortByRank(s[1..]);
      InsertKeepsSorted(s[0], rest);
      InsertByRank(s[0], rest)
  }

  /** The page's state: the stored list, the loading flag and the current page index. */
  datatype Pager = Pager(miners: seq<Miner>, loading: bool, page: int)

  /** On mount: nothing loaded, loading, first page. */
  const Initial: Pager := Pager([], true, 0)

  /** The leaderboard request: it failed (network, body, or a missing `data.list`, all of
      which throw inside the `try`), or it delivered the list. */
  datatype MinerFetch = FetchFailed | Listed(list: seq<Miner>)

  /** The end of `fetchData`: on success the sorted list is stored; on failure the list
      is left as it was; loading ends either way and the page index is untouched. */
  function Loaded(s: Pager, resp: MinerFetch): (r: Pager)
    ensures !r.loading && r.page == s.page
    ensures resp.FetchFailed? ==> r.miners == s.miners
    ensures resp.Listed? ==> SortedByRank(r.miners) && multiset(r.miners) == multiset(resp.list)
  {
    match resp
    case FetchFailed => s.(loading := false)
    case Listed(l) => Pager(SortByRank(l), false, s.page)
  }

  /** `miners.slice(page * pageSize, (page + 1) * pageSize)`: the rows of the current
      page, clipped to the list. */
  function PagedMiners(s: Pager): (r: seq<Miner>)
    ensures |r| <= PageSize
    ensures 0 <= s.page * PageSize <= |s.miners| ==> |r| == Min(PageSize, |s.miners| - s.page * PageSize)
    ensures 0 <= s.page && |s.miners| <= s.page * PageSize ==> r == []
    ensures 0 <= s.page ==> forall i :: 0 <= i < |r| ==> r[i] == s.miners[s.page * PageSize + i]
  {
    Slice(s.miners, s.page * PageSize, (s.page + 1) * PageSize)
  }

  function Min(a: int, b: int): int {
    if a <= b then a else b
  }

  /** `Math.ceil(miners.length / pageSize)`. */
  function TotalPages(n: nat): (r: nat)
    ensures r * PageSize >= n
    ensures r == 0 || (r - 1) * PageSize < n
  {
    (n + PageSize - 1) / PageSize
  }

  /** Previous is disabled on the first page (and not shown while loading). */
  predicate PrevEnabled(s: Pager) {
    !s.loading && s.page != 0
  }

  /** Next is disabled once the next page would start past the list. */
  predicate NextEnabled(s: Pager) {
    !s.loading && (s.page + 1) * PageSize < |s.miners|
  }

  /** A click on Previous: `setPage(p => Math.max(p - 1, 0))` when enabled. */
  function Prev(s: Pager): (r: Pager)
    ensures r.miners == s.miners && r.loading == s.loading
    ensures PrevEnabled(s) ==> r.page == (if s.page - 1 < 0 then 0 else s.page - 1)
    ensures !PrevEnabled(s) ==> r == s
    ensures s.page >= 0 ==> r.page >= 0
  {
    if PrevEnabled(s) then s.(page := if s.page - 1 < 0 then 0 else s.page - 1) else s
  }

  /** A click on Next: `setPage(p => p + 1)` when enabled. */
  function Next(s: Pager): (r: Pager)
    ensures r.miners == s.miners && r.loading == s.loading
    ensures NextEnabled(s) ==> r.page == s.page + 1 && r.page * PageSize < |s.miners|
    ensures !NextEnabled(s) ==> r == s
  {
    if NextEnabled(s) then s.(page := s.page + 1) else s
  }

  /** What can happen to the page: its single load, or a click. */
  datatype Event = Load(resp: MinerFetch) | ClickPrev | ClickNext

  /** One step. The load runs once, from the mount effect, so it only acts while
      loading; the buttons exist only after loading. */
  function Step(s: Pager, e: Event): (r: Pager)
    ensures e.Load? && !s.loading ==> r == s
    ensures e.Load? && s.loading ==> !r.loading && r.page == s.page
    ensures e.Load? && s.loading && e.resp.FetchFailed? ==> r.miners == s.miners
    ensures e.Load? && s.loading && e.resp.Listed? ==>
              SortedByRank(r.miners) && multiset(r.miners) == multiset(e.resp.list)
    ensures !e.Load? ==> r.miners == s.miners && r.loading == s.loading
    ensures e.ClickPrev? && PrevEnabled(s) ==> r.page == (if s.page - 1 < 0 then 0 else s.page - 1)
    ensures e.ClickNext? && NextEnabled(s) ==> r.page == s.page + 1
    ensures (e.ClickPrev? && !PrevEnabled(s)) || (e.ClickNext? && !NextEnabled(s)) ==> r == s
  {
    match e
    case Load(resp) => if s.loading then Loaded(s, resp) else s
    case ClickPrev => Prev(s)
    case ClickNext => Next(s)
  }

  /** The state after a sequence of events from mount. */
  function Run(events: seq<Event>): Pager {
    if events == [] then Initial else Step(Run(events[..|events| - 1]), events[|events| - 1])
  }

  /** The invariant of every reachable state: the page index is never negative; while
      loading nothing is stored and the first page is current; and a non-empty list
      always has rows on the current page. */
  predicate Valid(s: Pager) {
    && s.page >= 0
    && (s.loading ==> s.miners == [] && s.page == 0)
    && (|s.miners| == 0 ==> s.page == 0)
    && (|s.miners| > 0 ==> s.page * PageSize < |s.miners|)
  }

  lemma StepKeepsValid(s: Pager, e: Event)
    requires Valid(s)
    ensures Valid(Step(s, e))
  {
  }

  /** Every state reachable from mount is valid. */
  lemma {:induction false} RunValid(events: seq<Event>)
    ensures Valid(Run(events))
  {
    if events != [] {
      RunValid(events[..|events| - 1]);
      StepKeepsValid(Run(events[..|events| - 1]), events[|events| - 1]);
    }
  }

  /** Consequently, whenever the list is non-empty the page on screen shows at least one
      row, and the "Page x of y" label never passes the page count. */
  lemma ReachablePageNonEmpty(events: seq<Event>)
    requires |Run(events).miners| > 0
    ensures |PagedMiners(Run(events))| > 0
    ensures Run(events).page + 1 <= TotalPages(|Run(events).miners|)
  {
    RunValid(events);
    var s := Run(events);
    assert s.page * PageSize < |s.miners|;
  }
}

=== FILE: rpc_address.dfy ===
/** The native-to-EVM address resolver of src/lib/rpc.ts and the block-scoped
    transaction list that applies it to every item's `from` and `to`. */
module RpcAddress {
  import opened Wrappers
  import opened Js

  /** The prefix that marks an address in the chain's native encoding. */
  const NativePrefix: string := "net16601:"

  /** The account endpoint's answer for one native address: the request or its body
      failed, or it parsed and `data?.result?.address` is as given. */
  datatype AccountLookup = LookupFailed | LookupOk(address: Option<string>)

  /** `bech32?.startsWith('net16601:')`: false for `undefined` and `null`. */
  predicate IsNative(addr: Option<string>) {
    addr.Some? && StartsWith(addr.value, NativePrefix)
  }

  /** True when the lookup resolves `a` to a non-empty address. */
  predicate Resolves(lookup: string -> AccountLookup, a: string) {
    lookup(a).LookupOk? && TruthyStr(lookup(a).address)
  }

  /** `convertToEvmAddress`: a non-native argument (including `undefined`/`null`) is
      returned as it is; a native one is replaced by the looked-up address when that is
      present and non-empty, and kept on every failure. */
  function ConvertToEvmAddress(addr: Option<string>, lookup: string -> AccountLookup): (r: Option<string>)
    ensures !IsNative(addr) ==> r == addr
    ensures IsNative(addr) && Resolves(lookup, addr.value) ==> r == lookup(addr.value).address
    ensures IsNative(addr) && !Resolves(lookup, addr.value) ==> r == addr
    ensures r.Some? <==> addr.Some?
  {
    if !IsNative(addr) then addr
    else match lookup(addr.value)
      case LookupFailed => addr
      case LookupOk(a) => if TruthyStr(a) then a else addr
  }

  /** A non-native address never consults the lookup: any two lookups agree on it. */
  lemma NonNativeNeedsNoLookup(addr: Option<string>, l1: string -> AccountLookup, l2: string -> AccountLookup)
    requires !IsNative(addr)
    ensures ConvertToEvmAddress(addr, l1) == ConvertToEvmAddress(addr, l2) == addr
  {
  }

  /** The resolver never turns a non-empty address into an empty one: it returns either
      its argument or a non-empty resolved address. */
  lemma ResolvedNeverEmpty(addr: Option<string>, lookup: string -> AccountLookup)
    requires TruthyStr(addr)
    ensures TruthyStr(ConvertToEvmAddress(addr, lookup))
  {
  }

  // ---------------------------------------------------------------- block-hash list

  /** An explorer transaction record; `from`/`to` may be in native encoding and `to`
      is absent for a contract creation. The other fields are passed through. */
  datatype ExplorerTx = ExplorerTx(
    hash: Option<string>,
    from: Option<string>,
    to: Option<string>,
    value: Option<string>,
    gasFee: Option<string>,
    timestamp: int)

  /** The parsed body of the block-hash transaction endpoint: `status` and
      `result.list`, the latter `None` when `result` is null or has no `list`. */
  datatype BlockTxBody = BlockTxBody(status: string, list: Option<seq<Option<ExplorerTx>>>)

  /** `{ ...tx, from, to }` with both addresses converted. */
  function Enrich(tx: ExplorerTx, lookup: string -> AccountLookup): ExplorerTx {
    tx.(from := ConvertToEvmAddress(tx.from, lookup), to := ConvertToEvmAddress(tx.to, lookup))
  }

  /** `b` is `a` with at most its `from` and `to` changed. */
  predicate SameButAddresses(a: ExplorerTx, b: ExplorerTx) {
    a.hash == b.hash && a.value == b.value && a.gasFee == b.gasFee && a.timestamp == b.timestamp
  }

  /** True when every item of the list is non-null. */
  predicate NoNulls(xs: seq<Option<ExplorerTx>>) {
    forall i :: 0 <= i < |xs| ==> xs[i].Some?
  }

  /** The enriched list, item by item in order. */
  function EnrichAll(xs: seq<Option<ExplorerTx>>, lookup: string -> AccountLookup): (r: seq<ExplorerTx>)
    requires NoNulls(xs)
    ensures |r| == |xs|
    ensures forall i :: 0 <= i < |xs| ==>
              SameButAddresses(xs[i].value, r[i]) &&
              r[i].from == ConvertToEvmAddress(xs[i].value.from, lookup) &&
              r[i].to == ConvertToEvmAddress(xs[i].value.to, lookup)
  {
    if xs == [] then [] else [Enrich(xs[0].value, lookup)] + EnrichAll(xs[1..], lookup)
  }

  /** True when the fetcher reaches its mapping step with a list it can map. */
  predicate Enrichable(resp: Option<BlockTxBody>) {
    resp.Some? && resp.value.status == "1" && resp.value.list.Some? && NoNulls(resp.value.list.value)
  }

  /** `getTransactionsByBlockHash`: `[]` when the request or parse throws (`resp` is
      None), when `status !== '1'`, or when the list cannot be mapped (missing, or a null
      item); otherwise the list with every item's addresses converted, same length and
      order, other fields untouched. The response's `ok` flag is never consulted. */
  function TransactionsByBlockHash(resp: Option<BlockTxBody>, lookup: string -> AccountLookup): (r: seq<ExplorerTx>)
    ensures !Enrichable(resp) ==> r == []
    ensures Enrichable(resp) ==>
              var xs := resp.value.list.value;
              |r| == |xs| &&
              forall i :: 0 <= i < |xs| ==>
                SameButAddresses(xs[i].value, r[i]) &&
                r[i].from == ConvertToEvmAddress(xs[i].value.from, lookup) &&
                r[i].to == ConvertToEvmAddress(xs[i].value.to, lookup)
  {
    if Enrichable(resp) then EnrichAll(resp.value.list.value, lookup) else []
  }

  /** True when no item carries a native-encoded address. */
  predicate AllHex(xs: seq<Option<ExplorerTx>>) {
    forall i :: 0 <= i < |xs| ==> xs[i].Some? ==> !IsNative(xs[i].value.from) && !IsNative(xs[i].value.to)
  }

  /** A block whose transactions already use hex addresses comes back exactly as the
      server sent it, whatever the lookup would answer. */
  lemma HexListUnchanged(resp: Option<BlockTxBody>, lookup: string -> AccountLookup)
    requires Enrichable(resp) && AllHex(resp.value.list.value)
    ensures |TransactionsByBlockHash(resp, lookup)| == |resp.value.list.value|
    ensures forall i :: 0 <= i < |resp.value.list.value| ==>
              TransactionsByBlockHash(resp, lookup)[i] == resp.value.list.value[i].value
  {
    var xs := resp.value.list.value;
    var r := TransactionsByBlockHash(resp, lookup);
    forall i | 0 <= i < |xs|
      ensures r[i] == xs[i].value
    {
      assert r[i].from == xs[i].value.from && r[i].to == xs[i].value.to;
    }
  }
}

=== FILE: rpc_blocks.dfy ===
/** The RPC-node paths of src/lib/rpc.ts that walk recent blocks: the bounded backwards
    walk that gathers recent transactions, and the per-block transaction counts of the
    chart. The provider is an oracle from block number to the settled `getBlock` call,
    and `getBlockNumber()` is a settled height passed in. */
module RpcBlocks {
  import opened Wrappers
  import opened Js

  /** A transaction as the RPC provider returns it; `hash`/`from` are None when they
      are not strings. */
  datatype RpcTx = RpcTx(hash: Option<string>, from: Option<string>, to: Option<string>)

  /** A block as the RPC provider returns it; `transactions` may be missing. */
  datatype RpcBlock = RpcBlock(number: int, transactions: Option<seq<Option<RpcTx>>>)

  /** `provider.getBlock(n)`: rejects, or resolves to a block or null. */
  type BlockSource = int -> Settled<Option<RpcBlock>>

  /** The walk never inspects more than this many blocks. */
  const MaxBlocks: nat := 100

  /** The filter of the walk: non-null, with string `hash` and `from`. */
  predicate ValidTx(tx: Option<RpcTx>) {
    tx.Some? && tx.value.hash.Some? && tx.value.from.Some?
  }

  /** The valid transactions of one fetched block, in block order; nothing for a null
      block or one without transactions. */
  function ValidTxsOf(b: Settled<Option<RpcBlock>>): (r: seq<RpcTx>)
    ensures forall i :: 0 <= i < |r| ==> r[i].hash.Some? && r[i].from.Some?
  {
    if b.Resolved? && b.value.Some? && b.value.value.transactions.Some? then
      Keep(b.value.value.transactions.value)
    else []
  }

  /** `filter(ValidTx)` on a block's transaction array. */
  function Keep(xs: seq<Option<RpcTx>>): (r: seq<RpcTx>)
    ensures |r| <= |xs|
    ensures forall i :: 0 <= i < |r| ==> r[i].hash.Some? && r[i].from.Some?
    ensures forall i :: 0 <= i < |xs| && ValidTx(xs[i]) ==> xs[i].value in r
    ensures forall t :: t in r ==> Some(t) in xs
  {
    if xs == [] then []
    else (if ValidTx(xs[0]) then [xs[0].value] else []) + Keep(xs[1..])
  }

  /** Filtering a concatenation filters each part. */
  lemma {:induction false} KeepAppend(a: seq<Option<RpcTx>>, b: seq<Option<RpcTx>>)
    ensures Keep(a + b) == Keep(a) + Keep(b)
  {
    if a == [] {
      assert a + b == b;
    } else {
      assert (a + b)[0] == a[0];
      assert (a + b)[1..] == a[1..] + b;
      KeepAppend(a[1..], b);
    }
  }

  /** The block the walk fetches at step `k`: `latest - k`. */
  function BlockAt(source: BlockSource, latest: int, k: nat): Settled<Option<RpcBlock>> {
    source(latest - k)
  }

  /** Everything gathered from the first `n` blocks of the walk, newest block first. */
  function Gathered(source: BlockSource, latest: int, n: nat): seq<RpcTx> {
    if n == 0 then [] else Gathered(source, latest, n - 1) + ValidTxsOf(BlockAt(source, latest, n - 1))
  }

  /** The walk, after its first `k` blocks, still holds fewer than `txCount`
      transactions and so goes on. */
  predicate StillShort(source: BlockSource, latest: int, k: nat, txCount: int) {
    |Gathered(source, latest, k)| < txCount
  }

  /** Every gathered transaction passed the filter. */
  lemma {:induction false} GatheredValid(source: BlockSource, latest: int, n: nat)
    ensures forall i :: 0 <= i < |Gathered(source, latest, n)| ==>
              Gathered(source, latest, n)[i].hash.Some? && Gathered(source, latest, n)[i].from.Some?
  {
    if n > 0 {
      GatheredValid(source, latest, n - 1);
      var a := Gathered(source, latest, n - 1);
      var b := ValidTxsOf(BlockAt(source, latest, n - 1));
      var g := Gathered(source, latest, n);
      assert g == a + b;
      forall i | 0 <= i < |g|
        ensures g[i].hash.Some? && g[i].from.Some?
      {
        if i < |a| { assert g[i] == a[i]; } else { assert g[i] == b[i - |a|]; }
      }
    }
  }

  /** The loop of `getRecentTransactions(txCount)` once `getBlockNumber()` gave `latest`.
      It fetches blocks `latest`, `latest - 1`, ... (`requested`, in that order),
      gathering valid transactions, until it holds `txCount` of them or has checked 100
      blocks, and returns the first `txCount`. A rejected `getBlock` rejects the call. */
  method WalkBlocks(source: BlockSource, latest: int, txCount: int)
    returns (r: Settled<seq<RpcTx>>, requested: seq<int>)
    ensures |requested| <= MaxBlocks
    ensures forall k :: 0 <= k < |requested| ==> requested[k] == latest - k
    ensures forall k :: 0 <= k < |requested| ==> StillShort(source, latest, k, txCount)
    ensures r.Rejected? <==> |requested| > 0 && BlockAt(source, latest, |requested| - 1).Rejected?
    ensures forall k :: 0 <= k < |requested| - 1 ==> BlockAt(source, latest, k).Resolved?
    ensures r.Resolved? ==>
              (|requested| == MaxBlocks || |Gathered(source, latest, |requested|)| >= txCount) &&
              r.value == Slice(Gathered(source, latest, |requested|), 0, txCount)
    ensures r.Resolved? ==> |r.value| <= Length(txCount)
    ensures r.Resolved? ==> forall i :: 0 <= i < |r.value| ==> r.value[i].hash.Some? && r.value[i].from.Some?
  {
    var transactions: seq<RpcTx> := [];
    var checked: nat := 0;
    while |transactions| < txCount && checked < MaxBlocks
      invariant checked <= MaxBlocks
      invariant forall k :: 0 <= k < checked ==> StillShort(source, latest, k, txCount)
      invariant forall k :: 0 <= k < checked ==> BlockAt(source, latest, k).Resolved?
      invariant transactions == Gathered(source, latest, checked)
      invariant txCount <= 0 ==> transactions == []
      decreases MaxBlocks - checked
    {
      var block := source(latest - checked);
      if block.Rejected? {
        assert BlockAt(source, latest, checked).Rejected?;
        return Rejected, Requested(latest, checked + 1);
      }
      assert StillShort(source, latest, checked, txCount);
      transactions := transactions + ValidTxsOf(block);
      assert transactions == Gathered(source, latest, checked + 1);
      checked := checked + 1;
    }
    GatheredValid(source, latest, checked);
    FirstValid(transactions, txCount);
    r := Resolved(Slice(transactions, 0, txCount));
    requested := Requested(latest, checked);
  }

  /** `getRecentTransactions(txCount)`: a rejected `getBlockNumber()` rejects the call
      before any block is requested; otherwise the walk from the reported height. */
  method RecentTransactions(source: BlockSource, latest: Settled<int>, txCount: int)
    returns (r: Settled<seq<RpcTx>>, requested: seq<int>)
    ensures latest.Rejected? ==> r.Rejected? && requested == []
    ensures |requested| <= MaxBlocks
    ensures latest.Resolved? ==>
              (forall k :: 0 <= k < |requested| ==> requested[k] == latest.value - k) &&
              (forall k :: 0 <= k < |requested| ==> StillShort(source, latest.value, k, txCount)) &&
              (r.Rejected? <==> |requested| > 0 && BlockAt(source, latest.value, |requested| - 1).Rejected?)
    ensures r.Resolved? ==>
              latest.Resolved? &&
              (|requested| == MaxBlocks || |Gathered(source, latest.value, |requested|)| >= txCount) &&
              r.value == Slice(Gathered(source, latest.value, |requested|), 0, txCount)
    ensures latest.Resolved? ==>
              forall k :: 0 <= k < |requested| - 1 ==> BlockAt(source, latest.value, k).Resolved?
    ensures r.Resolved? ==> |r.value| <= Length(txCount)
    ensures r.Resolved? ==> forall i :: 0 <= i < |r.value| ==> r.value[i].hash.Some? && r.value[i].from.Some?
  {
    if latest.Rejected? {
      return Rejected, [];
    }
    r, requested := WalkBlocks(source, latest.value, txCount);
  }

  /** The block numbers of the first `n` steps of the walk. */
  function Requested(latest: int, n: nat): (r: seq<int>)
    ensures |r| == n
    ensures forall k :: 0 <= k < n ==> r[k] == latest - k
  {
    seq(n, k requires 0 <= k < n => latest - k)
  }

  /** `slice(0, txCount)` of what the walk gathered keeps at most `txCount` valid
      transactions; for `txCount <= 0` the walk gathered nothing at all. */
  lemma FirstValid(g: seq<RpcTx>, txCount: int)
    requires txCount <= 0 ==> g == []
    requires forall i :: 0 <= i < |g| ==> g[i].hash.Some? && g[i].from.Some?
    ensures |Slice(g, 0, txCount)| <= Length(txCount)
    ensures forall i :: 0 <= i < |Slice(g, 0, txCount)| ==>
              Slice(g, 0, txCount)[i].hash.Some? && Slice(g, 0, txCount)[i].from.Some?
  {
  }

  // ---------------------------------------------------------------- chart data

  /** One point of `getTxChartData` (the locale-formatted time label is not modelled). */
  datatype ChartPoint = ChartPoint(block: int, txs: nat)

  /** `block?.number ?? 0` and `block?.transactions?.length ?? 0`. */
  function PointOf(b: Option<RpcBlock>): (r: ChartPoint)
    ensures b.None? ==> r == ChartPoint(0, 0)
    ensures b.Some? ==> r.block == b.value.number
    ensures b.Some? && b.value.transactions.Some? ==> r.txs == |b.value.transactions.value|
    ensures b.Some? && b.value.transactions.None? ==> r.txs == 0
  {
    match b
    case None => ChartPoint(0, 0)
    case Some(blk) => ChartPoint(blk.number, if blk.transactions.Some? then |blk.transactions.value| else 0)
  }

  /** The points for blocks `latest - (n-1)` up to `latest`, oldest first, provided
      none of the fetches rejected. */
  function Points(source: BlockSource, latest: int, n: nat): (r: seq<ChartPoint>)
    requires forall k :: 0 <= k < n ==> BlockAt(source, latest, k).Resolved?
    ensures |r| == n
    ensures forall j :: 0 <= j < n ==> r[j] == PointOf(BlockAt(source, latest, n - 1 - j).value)
  {
    if n == 0 then [] else [PointOf(BlockAt(source, latest, n - 1).value)] + Points(source, latest, n - 1)
  }

  /** `Array.from({length: count})` has no elements for a count below 1. */
  function Length(count: int): nat {
    if count < 0 then 0 else count
  }

  /** The body of `getTxChartData(count)` once `getBlockNumber()` gave `latest`: fetches
      blocks `latest`, ..., `latest - count + 1` together (a single rejection rejects the
      call), reverses them so the oldest comes first, and maps each to its number and
      transaction count. */
  function ChartPoints(source: BlockSource, latest: int, count: int): (r: Settled<seq<ChartPoint>>)
    ensures r.Rejected? <==> exists k :: 0 <= k < Length(count) && BlockAt(source, latest, k).Rejected?
    ensures r.Resolved? ==>
              |r.value| == Length(count) &&
              forall j :: 0 <= j < |r.value| ==>
                r.value[j] == PointOf(BlockAt(source, latest, Length(count) - 1 - j).value)
  {
    if forall k :: 0 <= k < Length(count) ==> BlockAt(source, latest, k).Resolved? then
      Resolved(Points(source, latest, Length(count)))
    else Rejected
  }

  /** `getTxChartData(count)`: a rejected `getBlockNumber()` rejects the call. */
  function TxChartData(source: BlockSource, latest: Settled<int>, count: int): (r: Settled<seq<ChartPoint>>)
    ensures r.Rejected? <==>
              latest.Rejected? ||
              exists k :: 0 <= k < Length(count) && BlockAt(source, latest.value, k).Rejected?
    ensures r.Resolved? ==>
              latest.Resolved? && |r.value| == Length(count) &&
              forall j :: 0 <= j < |r.value| ==>
                r.value[j] == PointOf(BlockAt(source, latest.value, Length(count) - 1 - j).value)
  {
    if latest.Rejected? then Rejected else ChartPoints(source, latest.value, count)
  }

  /** When every fetched block reports its own height as its number, the chart's
      x-axis runs strictly upwards: oldest block first, newest last. */
  lemma ChartAscends(source: BlockSource, latest: int, count: int)
    requires forall k :: 0 <= k < Length(count) ==>
               BlockAt(source, latest, k).Resolved? && BlockAt(source, latest, k).value.Some? &&
               BlockAt(source, latest, k).value.value.number == latest - k
    ensures TxChartData(source, Resolved(latest), count).Resolved?
    ensures forall i, j :: 0 <= i < j < Length(count) ==>
              TxChartData(source, Resolved(latest), count).value[i].block <
              TxChartData(source, Resolved(latest), count).value[j].block
  {
    var r := TxChartData(source, Resolved(latest), count).value;
    var n := Length(count);
    forall i, j | 0 <= i < j < n
      ensures r[i].block < r[j].block
    {
      assert r[i].block == latest - (n - 1 - i);
      assert r[j].block == latest - (n - 1 - j);
    }
  }

  // ---------------------------------------------------------------- the walk as written

  /** A block as the ethers v6 provider returns it: `transactions` lists the transaction
      hashes, also when the transactions were prefetched. */
  datatype HashBlock = HashBlock(number: int, transactions: seq<string>)

  /** `provider.getBlock(n, true)` as the library returns it. */
  type HashBlockSource = int -> Settled<Option<HashBlock>>

  /** The block the as-written walk fetches at step `k`. */
  function HashBlockAt(source: HashBlockSource, latest: int, k: nat): Settled<Option<HashBlock>> {
    source(latest - k)
  }

  /** `tx && typeof tx.hash === 'string' && ...` on a hash string: `tx != []` is the
      truthiness test `tx &&`, and `false` is `typeof tx.hash === 'string'` evaluated on
      a string, which has no `hash` property; so the test never holds. */
  predicate HashPassesFilter(tx: string) {
    tx != [] && false
  }

  /** The walk's `filter` applied to a list of hashes. */
  function KeepHashes(hashes: seq<string>): (r: seq<string>)
    ensures |r| <= |hashes|
    ensures forall t :: t in r ==> t in hashes && HashPassesFilter(t)
  {
    if hashes == [] then []
    else
      var h := hashes[0];
      (if HashPassesFilter(h) then [h] else []) + KeepHashes(hashes[1..])
  }

  /** The filter keeps no hash at all. */
  lemma NoHashKept(hashes: seq<string>)
    ensures KeepHashes(hashes) == []
  {
  }

  /** The loop of `getRecentTransactions` on the blocks the library really returns: it
      never keeps a transaction, so whenever it resolves it has walked all 100 blocks
      (for a positive `txCount`) and returns `[]`, whatever the chain holds. */
  method WalkBlocksAsWritten(source: HashBlockSource, latest: int, txCount: int)
    returns (r: Settled<seq<string>>, checked: nat)
    ensures checked <= MaxBlocks
    ensures r.Resolved? ==> r.value == []
    ensures r.Resolved? && txCount > 0 ==>
              checked == MaxBlocks && forall k :: 0 <= k < MaxBlocks ==> HashBlockAt(source, latest, k).Resolved?
    ensures r.Rejected? ==> checked >= 1 && HashBlockAt(source, latest, checked - 1).Rejected?
  {
    var transactions: seq<string> := [];
    checked := 0;
    while |transactions| < txCount && checked < MaxBlocks
      invariant checked <= MaxBlocks
      invariant transactions == []
      invariant forall k :: 0 <= k < checked ==> HashBlockAt(source, latest, k).Resolved?
      decreases MaxBlocks - checked
    {
      var block := source(latest - checked);
      if block.Rejected? {
        assert HashBlockAt(source, latest, checked).Rejected?;
        return Rejected, checked + 1;
      }
      if block.value.Some? && |block.value.value.transactions| > 0 {
        NoHashKept(block.value.value.transactions);
        transactions := transactions + KeepHashes(block.value.value.transactions);
      }
      checked := checked + 1;
    }
    r := Resolved(Slice(transactions, 0, txCount));
  }
}

=== FILE: rpc_pages.dfy ===
/** The page envelopes of src/lib/rpc.ts: every list endpoint of the explorer API is
    normalised to `{list, total}` (or a bare list / count / string), and every failure
    is swallowed into an empty default. */
module RpcPages {
  import opened Wrappers
  import opened Js

  /** `json.result` of a list endpoint: its `list` and `total` fields, each possibly
      missing. A missing or null `result` is `None` one level up. */
  datatype PageResult<T> = PageResult(list: Option<seq<T>>, total: Option<int>)

  /** The shared shape every page fetcher returns. */
  datatype Page<T> = Page(list: seq<T>, total: int)

  /** The page every fetcher falls back to on failure. */
  function EmptyPage<T>(): Page<T> {
    Page([], 0)
  }

  /** True when the fetcher reaches its happy path: the response was ok and parsed. */
  predicate Succeeded<J>(resp: Fetched<J>) {
    resp.Http? && resp.ok
  }

  /** `getAddressTransactions` and `getLatestTransactions`: a non-ok response or an
      exception gives `{list: [], total: 0}`; otherwise `result.list || []` and
      `result.total || 0`, a missing `result` reading as an empty object. */
  function PageOf<T>(resp: Fetched<Option<PageResult<T>>>): (r: Page<T>)
    ensures !Succeeded(resp) ==> r == EmptyPage()
    ensures Succeeded(resp) && resp.body.Some? && resp.body.value.list.Some? ==>
              r.list == resp.body.value.list.value
    ensures Succeeded(resp) && resp.body.Some? && TruthyNum(resp.body.value.total) ==>
              r.total == resp.body.value.total.value
    ensures r.list == [] <==>
              !Succeeded(resp) || resp.body.None? || resp.body.value.list.None? ||
              resp.body.value.list.value == []
    ensures r.total == 0 <==>
              !Succeeded(resp) || resp.body.None? || !TruthyNum(resp.body.value.total)
  {
    if !Succeeded(resp) then EmptyPage()
    else
      match resp.body
      case None => EmptyPage()
      case Some(res) => Page(res.list.GetOr([]), OrNum(res.total, 0))
  }

  /** The ok response that carries exactly page `p`. */
  function Serve<T>(p: Page<T>): Fetched<Option<PageResult<T>>> {
    Http(true, Some(PageResult(Some(p.list), Some(p.total))))
  }

  /** Normalisation is a left inverse of serving a page: a well-formed response is
      passed through unchanged, including a total of 0. */
  lemma PageRoundTrip<T>(p: Page<T>)
    ensures PageOf(Serve(p)) == p
  {
  }

  // ---------------------------------------------------------------- ERC20 transfers

  /** `tx.transferTokenInfo` of a raw transfer. */
  datatype TokenInfo = TokenInfo(symbol: Option<string>, name: Option<string>, decimals: Option<int>)

  /** One raw item of the transfer endpoint's list. */
  datatype RawTransfer = RawTransfer(
    transactionHash: Option<string>,
    epochNumber: Option<int>,
    from: Option<string>,
    to: Option<string>,
    value: Option<string>,
    transferTokenInfo: Option<TokenInfo>,
    timestamp: Option<int>)

  /** The reshaped transfer `getERC20Transfers` returns. */
  datatype Transfer = Transfer(
    hash: Option<string>,
    block: Option<int>,
    from: Option<string>,
    to: Option<string>,
    value: Option<string>,
    symbol: string,
    name: string,
    decimals: int,
    timestamp: Option<int>)

  /** `tx.transferTokenInfo?.symbol`. */
  function InfoSymbol(t: RawTransfer): Option<string> {
    if t.transferTokenInfo.Some? then t.transferTokenInfo.value.symbol else None
  }

  /** `tx.transferTokenInfo?.name`. */
  function InfoName(t: RawTransfer): Option<string> {
    if t.transferTokenInfo.Some? then t.transferTokenInfo.value.name else None
  }

  /** `tx.transferTokenInfo?.decimals`. */
  function InfoDecimals(t: RawTransfer): Option<int> {
    if t.transferTokenInfo.Some? then t.transferTokenInfo.value.decimals else None
  }

  /** The per-item reshaping: fields renamed and passed through, `symbol` and `name`
      default to "" and `decimals` to 18 whenever they are falsy. */
  function ToTransfer(t: RawTransfer): (r: Transfer)
    ensures r.hash == t.transactionHash && r.block == t.epochNumber
    ensures r.from == t.from && r.to == t.to && r.value == t.value
    ensures r.timestamp == t.timestamp
    ensures r.symbol == "" <==> !TruthyStr(InfoSymbol(t))
    ensures r.name == "" <==> !TruthyStr(InfoName(t))
    ensures TruthyStr(InfoSymbol(t)) ==> r.symbol == InfoSymbol(t).value
    ensures TruthyStr(InfoName(t)) ==> r.name == InfoName(t).value
    ensures r.decimals != 0
    ensures TruthyNum(InfoDecimals(t)) ==> r.decimals == InfoDecimals(t).value
    ensures !TruthyNum(InfoDecimals(t)) ==> r.decimals == 18
  {
    Transfer(t.transactionHash, t.epochNumber, t.from, t.to, t.value,
             OrStr(InfoSymbol(t), ""), OrStr(InfoName(t), ""),
             OrNum(InfoDecimals(t), 18), t.timestamp)
  }

  /** A token whose metadata states 0 decimals is reported with 18 decimals, because
      `||` treats 0 like a missing value. */
  lemma ZeroDecimalsReadAs18(t: RawTransfer)
    requires t.transferTokenInfo.Some? && t.transferTokenInfo.value.decimals == Some(0)
    ensures ToTransfer(t).decimals == 18
  {
  }

  /** True when every item of a raw list is non-null. */
  predicate AllPresent<T>(xs: seq<Option<T>>) {
    forall i :: 0 <= i < |xs| ==> xs[i].Some?
  }

  /** The reshaped list, one transfer per raw item in order. */
  function ToTransfers(xs: seq<Option<RawTransfer>>): (r: seq<Transfer>)
    requires AllPresent(xs)
    ensures |r| == |xs|
    ensures forall i :: 0 <= i < |xs| ==> r[i] == ToTransfer(xs[i].value)
  {
    if xs == [] then [] else [ToTransfer(xs[0].value)] + ToTransfers(xs[1..])
  }

  /** `getERC20Transfers`: the page envelope of `PageOf` with every item reshaped; a
      null item makes the mapping throw, which the fetcher's catch turns into the
      empty page. */
  function ERC20Transfers(resp: Fetched<Option<PageResult<Option<RawTransfer>>>>): (r: Page<Transfer>)
    ensures !AllPresent(PageOf(resp).list) ==> r == EmptyPage()
    ensures AllPresent(PageOf(resp).list) ==>
              r.total == PageOf(resp).total &&
              |r.list| == |PageOf(resp).list| &&
              forall i :: 0 <= i < |r.list| ==> r.list[i] == ToTransfer(PageOf(resp).list[i].value)
  {
    var p := PageOf(resp);
    if AllPresent(p.list) then Page(ToTransfers(p.list), p.total) else EmptyPage()
  }

  /** The raw item the transfer endpoint sends for transfer `t`. */
  function FromTransfer(t: Transfer): RawTransfer {
    RawTransfer(t.hash, t.block, t.from, t.to, t.value,
                Some(TokenInfo(Some(t.symbol), Some(t.name), Some(t.decimals))), t.timestamp)
  }

  /** The ok response listing `ts` with the given `total`. */
  function ServeTransfers(ts: seq<Transfer>, total: int): Fetched<Option<PageResult<Option<RawTransfer>>>> {
    Http(true, Some(PageResult(Some(seq(|ts|, i requires 0 <= i < |ts| => Some(FromTransfer(ts[i])))), Some(total))))
  }

  /** Reshaping undoes serving: every transfer with non-zero decimals comes back with all
      its fields, in order, with the served total. */
  lemma TransfersRoundTrip(ts: seq<Transfer>, total: int)
    requires forall i :: 0 <= i < |ts| ==> ts[i].decimals != 0
    ensures ERC20Transfers(ServeTransfers(ts, total)) == Page(ts, total)
  {
    var r := ERC20Transfers(ServeTransfers(ts, total));
    forall i | 0 <= i < |ts|
      ensures r.list[i] == ts[i]
    {
      assert ToTransfer(FromTransfer(ts[i])) == ts[i];
    }
  }

  // ---------------------------------------------------------------- token holdings

  /** One item of the token endpoint's list, and equally one `TokenHolding`: `price ?? null`
      maps `undefined` to `null`, and both read as None here. */
  datatype TokenHolding = TokenHolding(
    address: string,
    name: string,
    symbol: string,
    decimals: int,
    amount: real,
    iconUrl: Option<string>,
    price: Option<real>,
    totalPrice: Option<real>)

  /** `data.result` of the token endpoint: only its `list` is read. */
  datatype HoldingsResult = HoldingsResult(list: Option<seq<Option<TokenHolding>>>)

  /** `getTokenHoldings`: the response's `ok` flag is never consulted; a missing
      `result` gives `[]` through `|| []`, while a missing `list` or a null item makes
      the mapping throw and the catch gives `[]`. */
  function TokenHoldings(resp: Fetched<Option<HoldingsResult>>): (r: seq<TokenHolding>)
    ensures resp.Threw? || resp.body.None? || resp.body.value.list.None? ==> r == []
    ensures resp.Http? && resp.body.Some? && resp.body.value.list.Some? ==>
              var xs := resp.body.value.list.value;
              (!AllPresent(xs) ==> r == []) &&
              (AllPresent(xs) ==> |r| == |xs| && forall i :: 0 <= i < |r| ==> r[i] == xs[i].value)
  {
    if resp.Threw? then []
    else match resp.body
      case None => []
      case Some(res) =>
        if res.list.None? || !AllPresent(res.list.value) then []
        else seq(|res.list.value|, i requires 0 <= i < |res.list.value| && AllPresent(res.list.value) =>
                 res.list.value[i].value)
  }

  /** The response whose list holds exactly `items`, with any `ok` flag. */
  function ServeHoldings(items: seq<TokenHolding>, ok: bool): Fetched<Option<HoldingsResult>> {
    Http(ok, Some(HoldingsResult(Some(seq(|items|, i requires 0 <= i < |items| => Some(items[i]))))))
  }

  /** The holdings come back exactly as served, whatever the response's `ok` flag says. */
  lemma HoldingsRoundTrip(items: seq<TokenHolding>, ok: bool)
    ensures TokenHoldings(ServeHoldings(items, ok)) == items
  {
  }

  // ---------------------------------------------------------------- single values

  /** `getStorageTxCount`: one request, the server's `result.total ?? 0`; 0 on a non-ok
      response or an exception. */
  function StorageTxCount<T>(resp: Fetched<Option<PageResult<T>>>): (r: int)
    ensures !Succeeded(resp) ==> r == 0
    ensures Succeeded(resp) && resp.body.Some? && resp.body.value.total.Some? ==>
              r == resp.body.value.total.value
    ensures Succeeded(resp) && (resp.body.None? || resp.body.value.total.None?) ==> r == 0
  {
    if !Succeeded(resp) then 0
    else match resp.body
      case None => 0
      case Some(res) => res.total.GetOr(0)
  }

  /** On numbers `?? 0` and `|| 0` agree, so the storage count is always the total the
      page envelope would report for the same response. */
  lemma {:induction false} StorageCountIsPageTotal<T>(resp: Fetched<Option<PageResult<T>>>)
    ensures StorageTxCount(resp) == PageOf(resp).total
  {
    if Succeeded(resp) && resp.body.Some? && resp.body.value.total.Some? {
      assert resp.body.value.total.value == 0 || TruthyNum(resp.body.value.total);
    }
  }

  /** `data.data` of the miner endpoint: only `totalReward` is read. */
  datatype MinerData = MinerData(totalReward: Option<string>)

  /** `getMinerReward`: `data.data.totalReward ?? '0'`, and '0' on a non-ok response or
      an exception. */
  function MinerReward(resp: Fetched<Option<MinerData>>): (r: string)
    ensures !Succeeded(resp) ==> r == "0"
    ensures Succeeded(resp) && resp.body.Some? && resp.body.value.totalReward.Some? ==>
              r == resp.body.value.totalReward.value
    ensures Succeeded(resp) && (resp.body.None? || resp.body.value.totalReward.None?) ==> r == "0"
  {
    if !Succeeded(resp) then "0"
    else match resp.body
      case None => "0"
      case Some(d) => d.totalReward.GetOr("0")
  }

  /** A served reward comes back unchanged, the empty string included: unlike the `||`
      fallbacks elsewhere, `??` only replaces a missing value. */
  lemma RewardRoundTrip(reward: string)
    ensures MinerReward(Http(true, Some(MinerData(Some(reward))))) == reward
  {
  }
}

=== FILE: search.dfy ===
/** The search box of src/components/Header.tsx: the submitted text is trimmed and
    classified as a block height, a transaction hash or an address, and the router is
    sent to the matching page; anything else is rejected with an alert. */
module Search {
  import opened Wrappers

  /** The characters `String.prototype.trim` removes: the ECMAScript WhiteSpace and
      LineTerminator code points. */
  predicate IsJsSpace(c: char) {
    var n := c as int;
    (0x09 <= n <= 0x0D) || n == 0x20 || n == 0xA0 || n == 0x1680 || (0x2000 <= n <= 0x200A) ||
    n == 0x2028 || n == 0x2029 || n == 0x202F || n == 0x205F || n == 0x3000 || n == 0xFEFF
  }

  /** True when every character of `s` is trimmed whitespace. */
  predicate AllSpace(s: string) {
    forall i :: 0 <= i < |s| ==> IsJsSpace(s[i])
  }

  /** `s.trimStart()`: the suffix left after removing the leading whitespace. */
  function TrimStart(s: string): (r: string)
    ensures |r| <= |s| && r == s[|s| - |r|..]
    ensures AllSpace(s[..|s| - |r|])
    ensures r == [] || !IsJsSpace(r[0])
  {
    if |s| > 0 && IsJsSpace(s[0]) then TrimStart(s[1..]) else s
  }

  /** `s.trimEnd()`: the prefix left after removing the trailing whitespace. */
  function TrimEnd(s: string): (r: string)
    ensures |r| <= |s| && r == s[..|r|]
    ensures AllSpace(s[|r|..])
    ensures r == [] || !IsJsSpace(r[|r| - 1])
  {
    if |s| > 0 && IsJsSpace(s[|s| - 1]) then
      var r := TrimEnd(s[..|s| - 1]);
      assert s[|r|..] == s[..|s| - 1][|r|..] + [s[|s| - 1]];
      r
    else s
  }

  /** `s.trim()`: the middle of `s` left after removing whitespace at both ends. */
  function Trim(s: string): (r: string)
    ensures r == [] || (!IsJsSpace(r[0]) && !IsJsSpace(r[|r| - 1]))
    ensures Lead(s) + |r| <= |s| && r == s[Lead(s)..Lead(s) + |r|]
    ensures AllSpace(s[..Lead(s)]) && AllSpace(s[Lead(s) + |r|..])
  {
    var t := TrimStart(s);
    var r := TrimEnd(t);
    TrimParts(s, Lead(s), t, r);
    r
  }

  /** The number of leading whitespace characters `trim` removes. */
  function Lead(s: string): (n: nat)
    ensures n <= |s| && s[n..] == TrimStart(s) && AllSpace(s[..n])
  {
    |s| - |TrimStart(s)|
  }

  /** A prefix `r` of the suffix `t == s[a..]` is the slice `s[a..a + |r|]`, and what
      follows it in `t` is what follows it in `s`. */
  lemma TrimParts(s: string, a: nat, t: string, r: string)
    requires a <= |s| && t == s[a..]
    requires |r| <= |t| && r == t[..|r|] && AllSpace(t[|r|..])
    ensures a + |r| <= |s| && r == s[a..a + |r|] && AllSpace(s[a + |r|..])
  {
    assert t[|r|..] == s[a + |r|..];
  }

  /** `/^\d+$/`: one or more ASCII digits. */
  predicate IsDigits(s: string) {
    |s| >= 1 && forall i :: 0 <= i < |s| ==> '0' <= s[i] <= '9'
  }

  /** `[a-fA-F0-9]`. */
  predicate IsHexDigit(c: char) {
    ('0' <= c <= '9') || ('a' <= c <= 'f') || ('A' <= c <= 'F')
  }

  /** `/^0x[a-fA-F0-9]{n}$/`: a lower-case `0x` and exactly `n` hex digits. */
  predicate IsHexWord(s: string, n: nat) {
    |s| == n + 2 && s[0] == '0' && s[1] == 'x' && forall i :: 2 <= i < |s| ==> IsHexDigit(s[i])
  }

  const TxHashDigits: nat := 64
  const AddressDigits: nat := 40

  /** The page a search leads to, carrying the trimmed input. */
  datatype Route = BlockRoute(height: string) | TxRoute(hash: string) | AddressRoute(address: string)

  /** The path handed to `router.push`. */
  function Path(r: Route): string {
    match r
    case BlockRoute(h) => "/block/" + h
    case TxRoute(h) => "/tx/" + h
    case AddressRoute(a) => "/address/" + a
  }

  /** The text a route carries. */
  function Payload(r: Route): string {
    match r
    case BlockRoute(h) => h
    case TxRoute(h) => h
    case AddressRoute(a) => a
  }

  /** The `if` chain of `handleSearch` on the trimmed `input`: each class is chosen
      exactly when its own pattern holds (the three are disjoint), the route carries the
      input, and None stands for the "Input not recognized" alert. */
  function ClassifyInput(input: string): (r: Option<Route>)
    ensures r == Some(BlockRoute(input)) <==> IsDigits(input)
    ensures r == Some(TxRoute(input)) <==> IsHexWord(input, TxHashDigits)
    ensures r == Some(AddressRoute(input)) <==> IsHexWord(input, AddressDigits)
    ensures r.None? <==>
              !IsDigits(input) && !IsHexWord(input, TxHashDigits) && !IsHexWord(input, AddressDigits)
    ensures r.Some? ==> Payload(r.value) == input
  {
    if IsDigits(input) then Some(BlockRoute(input))
    else if IsHexWord(input, TxHashDigits) then Some(TxRoute(input))
    else if IsHexWord(input, AddressDigits) then Some(AddressRoute(input))
    else None
  }

  /** `handleSearch`: the submitted text is trimmed before it is classified, and the
      route carries the trimmed text. */
  function Classify(search: string): (r: Option<Route>)
    ensures r == Some(BlockRoute(Trim(search))) <==> IsDigits(Trim(search))
    ensures r == Some(TxRoute(Trim(search))) <==> IsHexWord(Trim(search), TxHashDigits)
    ensures r == Some(AddressRoute(Trim(search))) <==> IsHexWord(Trim(search), AddressDigits)
    ensures r.None? <==>
              !IsDigits(Trim(search)) && !IsHexWord(Trim(search), TxHashDigits) &&
              !IsHexWord(Trim(search), AddressDigits)
    ensures r.Some? ==> Payload(r.value) == Trim(search)
  {
    ClassifyInput(Trim(search))
  }

  /** The three accepted classes never overlap, so an input has at most one route. */
  lemma ClassesDisjoint(s: string)
    ensures !(IsDigits(s) && IsHexWord(s, TxHashDigits))
    ensures !(IsDigits(s) && IsHexWord(s, AddressDigits))
    ensures !(IsHexWord(s, TxHashDigits) && IsHexWord(s, AddressDigits))
  {
    if IsDigits(s) && |s| >= 2 {
      assert '0' <= s[1] <= '9';
    }
  }

  /** Empty and whitespace-only input is rejected. */
  lemma BlankRejected(search: string)
    requires AllSpace(search)
    ensures Classify(search).None?
  {
    BlankTrimsToEmpty(search);
  }

  lemma {:induction false} BlankTrimsToEmpty(s: string)
    requires AllSpace(s)
    ensures TrimStart(s) == []
  {
    if |s| > 0 {
      BlankTrimsToEmpty(s[1..]);
    }
  }

  /** Leading whitespace is dropped entirely by `trimStart`. */
  lemma {:induction false} TrimStartPadded(pad: string, s: string)
    requires AllSpace(pad)
    ensures TrimStart(pad + s) == TrimStart(s)
  {
    if |pad| > 0 {
      assert (pad + s)[1..] == pad[1..] + s;
      TrimStartPadded(pad[1..], s);
    } else {
      assert pad + s == s;
    }
  }

  /** Trailing whitespace is dropped entirely by `trimEnd`. */
  lemma {:induction false} TrimEndPadded(s: string, pad: string)
    requires AllSpace(pad)
    ensures TrimEnd(s + pad) == TrimEnd(s)
  {
    if |pad| > 0 {
      var p := pad[..|pad| - 1];
      assert (s + pad)[..|s + pad| - 1] == s + p;
      TrimEndPadded(s, p);
    } else {
      assert s + pad == s;
    }
  }

  /** `trimStart` of a string with trailing text: either the start of `s` survives and the
      tail is kept whole, or `s` was blank and only the trimmed tail is left. */
  lemma {:induction false} TrimStartAppend(s: string, t: string)
    ensures TrimStart(s) != [] ==> TrimStart(s + t) == TrimStart(s) + t
    ensures TrimStart(s) == [] ==> TrimStart(s + t) == TrimStart(t)
  {
    if |s| > 0 && IsJsSpace(s[0]) {
      assert (s + t)[1..] == s[1..] + t;
      TrimStartAppend(s[1..], t);
    } else if |s| == 0 {
      assert s + t == t;
    }
  }

  /** Whitespace around the input never changes what `trim` leaves. */
  lemma TrimPadded(pre: string, s: string, post: string)
    requires AllSpace(pre) && AllSpace(post)
    ensures Trim(pre + s + post) == Trim(s)
  {
    assert pre + s + post == pre + (s + post);
    TrimStartPadded(pre, s + post);
    TrimStartAppend(s, post);
    if TrimStart(s) != [] {
      TrimEndPadded(TrimStart(s), post);
    } else {
      BlankTrimsToEmpty(post);
    }
  }

  /** Leading and trailing whitespace never changes the classification or the route. */
  lemma PaddingIgnored(pre: string, s: string, post: string)
    requires AllSpace(pre) && AllSpace(post)
    ensures Classify(pre + s + post) == Classify(s)
  {
    TrimPadded(pre, s, post);
  }

  /** The prefix must be a lower-case `0x`: an upper-case `0X` is never a hash or an
      address. */
  lemma UpperPrefixRejected(search: string)
    requires |Trim(search)| >= 2 && Trim(search)[0] == '0' && Trim(search)[1] == 'X'
    ensures Classify(search).None?
  {
    assert !IsDigits(Trim(search)) by { assert !('0' <= Trim(search)[1] <= '9'); }
  }

  /** The hex digits match in either case: any 40 digits drawn from `0-9a-fA-F` after
      `0x` make an address. */
  lemma MixedCaseAddress(digits: string)
    requires |digits| == AddressDigits && forall i :: 0 <= i < |digits| ==> IsHexDigit(digits[i])
    ensures Classify("0x" + digits) == Some(AddressRoute("0x" + digits))
  {
    PrefixedDigits(digits);
    TrimOfWord("0x" + digits);
  }

  lemma PrefixedDigits(digits: string)
    requires |digits| == AddressDigits && forall i :: 0 <= i < |digits| ==> IsHexDigit(digits[i])
    ensures IsHexWord("0x" + digits, AddressDigits)
  {
    var w := "0x" + digits;
    forall i | 2 <= i < |w|
      ensures IsHexDigit(w[i])
    {
      assert w[i] == digits[i - 2];
    }
  }

  /** A string beginning with `0` and ending with a hex digit is its own trim. */
  lemma TrimOfWord(s: string)
    requires |s| >= 2 && s[0] == '0' && IsHexDigit(s[|s| - 1])
    ensures Trim(s) == s
  {
  }

  /** Navigating from `search`: the path the router is pushed to, if any. */
  function Navigate(search: string): (r: Option<string>)
    ensures r.Some? <==> Classify(search).Some?
    ensures IsDigits(Trim(search)) ==> r == Some("/block/" + Trim(search))
    ensures IsHexWord(Trim(search), TxHashDigits) ==> r == Some("/tx/" + Trim(search))
    ensures IsHexWord(Trim(search), AddressDigits) ==> r == Some("/address/" + Trim(search))
  {
    match Classify(search)
    case None => None
    case Some(route) => Some(Path(route))
  }
}

=== FILE: token_table.dfy ===
/** The token holdings table of src/components/TokenTable.tsx: one row per holding, the
    icon fallback, the abbreviated contract link and the USD cells. Locale-aware number
    formatting is two oracles from a number to its text: the default `toLocaleString()` of
    the amount, and the two-decimal one of the USD cells. */
module TokenTable {
  import opened Wrappers
  import opened Js
  import RpcPages

  /** The image shown when a holding has no icon. */
  const DefaultIcon: string := "/0g-logos.png"

  /** `token.iconUrl || '/0g-logos.png'`: never empty. */
  function Icon(iconUrl: Option<string>): (r: string)
    ensures r != ""
    ensures TruthyStr(iconUrl) ==> r == iconUrl.value
    ensures !TruthyStr(iconUrl) ==> r == DefaultIcon
  {
    OrStr(iconUrl, DefaultIcon)
  }

  /** `formatUsd`: `'-'` for a null or undefined value, otherwise `'$'` followed by the
      two-decimal locale text `usdText`. Zero is a value, not a missing one. */
  function FormatUsd(value: Option<real>, usdText: real -> string): (r: string)
    ensures r == "-" <==> value.None?
    ensures value.Some? ==> |r| >= 1 && r[0] == '$' && r[1..] == usdText(value.value)
  {
    if value.Some? then
      var r := "$" + usdText(value.value);
      assert r[0] == '$';
      r
    else "-"
  }

  /** `address.slice(0, 6) + '...' + address.slice(-4)`. */
  function Abbreviate(address: string): (r: string)
    ensures |r| == (if |address| < 6 then |address| else 6) + 3 + (if |address| < 4 then |address| else 4)
    ensures |address| >= 10 ==> |r| == 13
    ensures |address| >= 6 ==> r[..6] == address[..6] && r[6..9] == "..."
    ensures |address| >= 4 ==> r[|r| - 4..] == address[|address| - 4..]
    ensures |address| < 6 ==> r[..|address|] == address && r[|address|..|address| + 3] == "..."
    ensures |address| < 4 ==> r[|address| + 3..] == address
  {
    Slice(address, 0, 6) + "..." + Slice(address, -4, |address|)
  }

  /** One rendered row. */
  datatype TokenRow = TokenRow(icon: string, name: string, symbol: string, href: string,
                               contract: string, amount: string, price: string, value: string)

  /** The link of a holding's row. */
  function Href(address: string): (r: string)
    ensures |r| == 7 + |address| && r[..7] == "/token/" && r[7..] == address
  {
    "/token/" + address
  }

  /** The row of one holding: the amount in the default locale text `amountText`, the
      price and value cells through `formatUsd`. */
  function RowOf(t: RpcPages.TokenHolding, amountText: real -> string, usdText: real -> string): (r: TokenRow)
    ensures r.icon == Icon(t.iconUrl) && r.name == t.name && r.symbol == t.symbol
    ensures r.href == "/token/" + t.address
    ensures |r.href| == 7 + |t.address| && r.href[7..] == t.address && r.contract == Abbreviate(t.address)
    ensures r.amount == amountText(t.amount)
    ensures r.price == "-" <==> t.price.None?
    ensures r.value == "-" <==> t.totalPrice.None?
    ensures t.price.Some? ==> |r.price| >= 1 && r.price[0] == '$' && r.price[1..] == usdText(t.price.value)
    ensures t.totalPrice.Some? ==> |r.value| >= 1 && r.value[0] == '$' && r.value[1..] == usdText(t.totalPrice.value)
  {
    TokenRow(Icon(t.iconUrl), t.name, t.symbol, Href(t.address), Abbreviate(t.address),
             amountText(t.amount), FormatUsd(t.price, usdText), FormatUsd(t.totalPrice, usdText))
  }

  /** `tokens.map(...)`: one row per holding, in order. */
  function Rows(tokens: seq<RpcPages.TokenHolding>, amountText: real -> string, usdText: real -> string): (r: seq<TokenRow>)
    ensures |r| == |tokens|
    ensures forall i :: 0 <= i < |tokens| ==> r[i] == RowOf(tokens[i], amountText, usdText)
  {
    seq(|tokens|, i requires 0 <= i < |tokens| => RowOf(tokens[i], amountText, usdText))
  }

  /** Rendering a list in two parts renders each part on its own. */
  lemma RowsAppend(a: seq<RpcPages.TokenHolding>, b: seq<RpcPages.TokenHolding>,
                   amountText: real -> string, usdText: real -> string)
    ensures Rows(a + b, amountText, usdText) == Rows(a, amountText, usdText) + Rows(b, amountText, usdText)
  {
    var l := Rows(a + b, amountText, usdText);
    var r := Rows(a, amountText, usdText) + Rows(b, amountText, usdText);
    forall i | 0 <= i < |l|
      ensures l[i] == r[i]
    {
      if i < |a| {
        assert (a + b)[i] == a[i];
      } else {
        assert (a + b)[i] == b[i - |a|];
      }
    }
  }

  /** Two rows link to the same page exactly when their holdings have the same contract
      address, so the link identifies the token. */
  lemma LinksIdentifyTokens(tokens: seq<RpcPages.TokenHolding>, amountText: real -> string,
                            usdText: real -> string, i: nat, j: nat)
    requires i < |tokens| && j < |tokens|
    ensures Rows(tokens, amountText, usdText)[i].href == Rows(tokens, amountText, usdText)[j].href
            <==> tokens[i].address == tokens[j].address
  {
    var rows := Rows(tokens, amountText, usdText);
    if rows[i].href == rows[j].href {
      assert rows[i].href[7..] == rows[j].href[7..];
    }
  }
}

=== FILE: transaction_table.dfy ===
/** The latest-transactions table of src/components/TransactionTable.tsx: the age
    column's integer decomposition, the truncated hash and address links, the
    "Contract Creation" cell, and the loading / empty / rows states of the polled list. */
module TransactionTable {
  import opened Wrappers
  import opened Js
  import RpcAddress
  import RpcPages

  const SecondsPerMinute: int := 60
  const SecondsPerHour: int := 3600
  const SecondsPerDay: int := 86400

  /** JavaScript's `a % b` for a positive divisor: the remainder takes the sign of `a`
      (Dafny's `%` never goes negative). */
  function JsRem(a: int, b: int): (r: int)
    requires b > 0
    ensures a >= 0 ==> 0 <= r < b
    ensures a < 0 ==> -b < r <= 0
    ensures a >= 0 ==> r == a % b
    ensures (a - r) % b == 0
  {
    if a >= 0 then
      RemCancels(a, b);
      a % b
    else
      NegRem(a, b);
      -((-a) % b)
  }

  /** Removing its remainder from `a` leaves a multiple of `d`. */
  lemma RemCancels(a: int, d: int)
    requires d > 0
    ensures (a - a % d) % d == 0
  {
    assert a - a % d == (a / d) * d + 0;
    DivUnique(a - a % d, d, a / d, 0);
  }

  /** Removing the remainder of `n` from `-n` leaves a multiple of `d`. */
  lemma NegRem(a: int, d: int)
    requires a < 0 && d > 0
    ensures (a - -((-a) % d)) % d == 0
  {
    var n := -a;
    var q := n / d;
    var m := n % d;
    assert n == q * d + m;
    assert -n + m == (-q) * d by {
      assert (-q) * d == -(q * d);
    }
    DivUnique(-n + m, d, -q, 0);
  }

  /** Euclidean division is unique: `a == q * d + r` with `0 <= r < d` makes `q` the
      quotient and `r` the remainder. */
  lemma DivUnique(a: int, d: int, q: int, r: int)
    requires d > 0 && 0 <= r < d && a == q * d + r
    ensures a / d == q && a % d == r
  {
    var q' := a / d;
    var r' := a % d;
    assert (q - q') * d == r' - r by {
      assert (q - q') * d == q * d - q' * d;
    }
    if q > q' {
      AtLeastOnce(q - q', d);
      assert false;
    }
    if q < q' {
      AtLeastOnce(q' - q, d);
      assert false;
    }
  }

  /** A positive multiple of `d` is at least `d`. */
  lemma AtLeastOnce(k: int, d: int)
    requires k >= 1 && d > 0
    ensures k * d >= d
  {
  }

  /** Flooring `-x / d` rounds away from zero: it is minus the ceiling of `x / d`. */
  lemma NegFloor(x: int, d: int)
    requires x >= 0 && d > 0
    ensures (-x) / d == -((x + d - 1) / d)
  {
    var q := (x + d - 1) / d;
    var m := (x + d - 1) % d;
    assert -x == (-q) * d + (d - 1 - m);
    DivUnique(-x, d, -q, d - 1 - m);
  }

  /** `Math.floor(Date.now() / 1000 - timestamp)` with the clock reading `nowMs` in
      milliseconds: the whole seconds elapsed, rounded down. */
  function SecondsAgo(nowMs: int, timestamp: int): (r: int)
    ensures r * 1000 <= nowMs - timestamp * 1000 < r * 1000 + 1000
  {
    (nowMs - timestamp * 1000) / 1000
  }

  /** The three numbers `formatAge` prints as `${days}d ${hours}h ${minutes}m ago`. */
  datatype Age = Age(days: int, hours: int, minutes: int)

  /** The whole seconds an age stands for. */
  function Seconds(a: Age): int {
    a.days * SecondsPerDay + a.hours * SecondsPerHour + a.minutes * SecondsPerMinute
  }

  /** `formatAge`: floored days, then hours and minutes of the JavaScript remainders.
      For a non-negative age the hours and minutes are in range and the age is exact to
      the minute; a timestamp in the future gives negative parts. */
  function FormatAge(secondsAgo: int): (r: Age)
    ensures secondsAgo >= 0 ==>
              r.days >= 0 && 0 <= r.hours < 24 && 0 <= r.minutes < 60 &&
              Seconds(r) <= secondsAgo < Seconds(r) + SecondsPerMinute
    ensures secondsAgo < 0 ==> r.days < 0 && -24 <= r.hours <= 0 && -60 <= r.minutes <= 0
    ensures secondsAgo < 0 ==>
              var ahead := -secondsAgo;
              r.days == -((ahead + SecondsPerDay - 1) / SecondsPerDay) &&
              r.hours == -((ahead % SecondsPerDay + SecondsPerHour - 1) / SecondsPerHour) &&
              r.minutes == -((ahead % SecondsPerHour + SecondsPerMinute - 1) / SecondsPerMinute)
  {
    var days := secondsAgo / SecondsPerDay;
    var hours := JsRem(secondsAgo, SecondsPerDay) / SecondsPerHour;
    var minutes := JsRem(secondsAgo, SecondsPerHour) / SecondsPerMinute;
    if secondsAgo < 0 then
      FutureParts(secondsAgo);
      Age(days, hours, minutes)
    else
      PastParts(secondsAgo);
      Age(days, hours, minutes)
  }

  /** The parts of a non-negative age are in range and exact to the minute. */
  lemma PastParts(secondsAgo: int)
    requires secondsAgo >= 0
    ensures JsRem(secondsAgo, SecondsPerDay) == secondsAgo % SecondsPerDay
    ensures JsRem(secondsAgo, SecondsPerHour) == secondsAgo % SecondsPerHour
    ensures var r := Age(secondsAgo / SecondsPerDay, (secondsAgo % SecondsPerDay) / SecondsPerHour,
                         (secondsAgo % SecondsPerHour) / SecondsPerMinute);
            r.days >= 0 && 0 <= r.hours < 24 && 0 <= r.minutes < 60 &&
            Seconds(r) <= secondsAgo < Seconds(r) + SecondsPerMinute
  {
    var days := secondsAgo / SecondsPerDay;
    var inDay := secondsAgo % SecondsPerDay;
    assert secondsAgo == days * SecondsPerDay + inDay;
    assert inDay % SecondsPerHour == secondsAgo % SecondsPerHour;
  }

  /** The parts of a negative age: each floored quotient rounds away from zero. */
  lemma FutureParts(secondsAgo: int)
    requires secondsAgo < 0
    ensures secondsAgo / SecondsPerDay < 0
    ensures -24 <= JsRem(secondsAgo, SecondsPerDay) / SecondsPerHour <= 0
    ensures -60 <= JsRem(secondsAgo, SecondsPerHour) / SecondsPerMinute <= 0
    ensures var ahead := -secondsAgo;
            secondsAgo / SecondsPerDay == -((ahead + SecondsPerDay - 1) / SecondsPerDay) &&
            JsRem(secondsAgo, SecondsPerDay) / SecondsPerHour ==
              -((ahead % SecondsPerDay + SecondsPerHour - 1) / SecondsPerHour) &&
            JsRem(secondsAgo, SecondsPerHour) / SecondsPerMinute ==
              -((ahead % SecondsPerHour + SecondsPerMinute - 1) / SecondsPerMinute)
  {
    var ahead := -secondsAgo;
    assert JsRem(secondsAgo, SecondsPerDay) == -(ahead % SecondsPerDay);
    assert JsRem(secondsAgo, SecondsPerHour) == -(ahead % SecondsPerHour);
    NegFloor(ahead, SecondsPerDay);
    NegFloor(ahead % SecondsPerDay, SecondsPerHour);
    NegFloor(ahead % SecondsPerHour, SecondsPerMinute);
  }

  /** A transaction one second ahead of the client clock reads "-1d -1h -1m ago", an age
      a whole day and an hour and a minute away from the truth. */
  lemma OneSecondAhead()
    ensures FormatAge(-1) == Age(-1, -1, -1)
    ensures Seconds(FormatAge(-1)) + SecondsPerMinute <= -1 - SecondsPerDay
  {
    FutureParts(-1);
  }

  /** The decomposition is the only one with hours below 24, minutes below 60 and an
      error of less than a minute: `formatAge` reads back exactly the age it was given. */
  lemma AgeRoundTrip(a: Age, seconds: int)
    requires a.days >= 0 && 0 <= a.hours < 24 && 0 <= a.minutes < 60
    requires 0 <= seconds < SecondsPerMinute
    ensures FormatAge(Seconds(a) + seconds) == a
  {
    var s := Seconds(a) + seconds;
    var inDay := a.hours * SecondsPerHour + a.minutes * SecondsPerMinute + seconds;
    assert 0 <= inDay < SecondsPerDay;
    assert s == a.days * SecondsPerDay + inDay;
    assert s / SecondsPerDay == a.days;
    assert s % SecondsPerDay == inDay;
    var inHour := a.minutes * SecondsPerMinute + seconds;
    assert s == (a.days * 24 + a.hours) * SecondsPerHour + inHour;
    assert s % SecondsPerHour == inHour;
  }

  // ---------------------------------------------------------------- rows

  /** The "To" cell: a link for a transaction with a recipient, the italic label for a
      contract creation. */
  datatype ToCell = ContractCreation | AddressLink(href: string, text: string)

  /** `s.slice(0, 10) + "..."`. */
  function Truncate(s: string): (r: string)
    ensures |s| >= 10 ==> r == s[..10] + "..."
    ensures |s| < 10 ==> r == s + "..."
    ensures |r| <= 13
  {
    Slice(s, 0, 10) + "..."
  }

  /** `tx.to ? <Link …> : "Contract Creation"`. */
  function ToCellOf(to: Option<string>): (r: ToCell)
    ensures r.ContractCreation? <==> !TruthyStr(to)
    ensures r.AddressLink? ==> r.href == "/address/" + to.value && r.text == Truncate(to.value)
  {
    if TruthyStr(to) then AddressLink("/address/" + to.value, Truncate(to.value)) else ContractCreation
  }

  /** One rendered row. */
  datatype Row = Row(hashHref: string, hashLabel: string, fromHref: string, fromLabel: string, to: ToCell, age: Age)

  /** The row for `tx` at clock `nowMs`; None when `hash` or `from` is missing, where
      `slice` on `undefined` makes the render throw. */
  function RowOf(tx: RpcAddress.ExplorerTx, nowMs: int): (r: Option<Row>)
    ensures r.Some? <==> tx.hash.Some? && tx.from.Some?
    ensures r.Some? ==>
              r.value.hashHref == "/tx/" + tx.hash.value && r.value.hashLabel == Truncate(tx.hash.value) &&
              r.value.fromHref == "/address/" + tx.from.value && r.value.fromLabel == Truncate(tx.from.value) &&
              r.value.to == ToCellOf(tx.to) &&
              r.value.age == FormatAge(SecondsAgo(nowMs, tx.timestamp))
  {
    if tx.hash.Some? && tx.from.Some? then
      Some(Row("/tx/" + tx.hash.value, Truncate(tx.hash.value),
               "/address/" + tx.from.value, Truncate(tx.from.value),
               ToCellOf(tx.to), FormatAge(SecondsAgo(nowMs, tx.timestamp))))
    else None
  }

  /** The component's state: the stored list and the loading flag. */
  datatype TableState = TableState(txs: seq<RpcAddress.ExplorerTx>, loading: bool)

  const Mounted: TableState := TableState([], true)

  /** What the table shows. */
  datatype View = LoadingView | EmptyView | RowsView(rows: seq<Row>) | RenderError

  /** True when every stored transaction can be rendered. */
  predicate Renderable(txs: seq<RpcAddress.ExplorerTx>) {
    forall i :: 0 <= i < |txs| ==> txs[i].hash.Some? && txs[i].from.Some?
  }

  /** The rows of a renderable list, one per transaction in order. */
  function Rows(txs: seq<RpcAddress.ExplorerTx>, nowMs: int): (r: seq<Row>)
    requires Renderable(txs)
    ensures |r| == |txs|
    ensures forall i :: 0 <= i < |txs| ==> Some(r[i]) == RowOf(txs[i], nowMs)
  {
    if txs == [] then [] else [RowOf(txs[0], nowMs).value] + Rows(txs[1..], nowMs)
  }

  /** The render: "Loading transactions..." while loading, then "No transactions found."
      for an empty list, else one row per transaction. */
  function Render(s: TableState, nowMs: int): (r: View)
    ensures r.LoadingView? <==> s.loading
    ensures r.EmptyView? <==> !s.loading && s.txs == []
    ensures r.RowsView? ==> |r.rows| == |s.txs| && |r.rows| > 0
    ensures r.RowsView? ==> Renderable(s.txs) && r.rows == Rows(s.txs, nowMs)
    ensures r.RenderError? <==> !s.loading && s.txs != [] && !Renderable(s.txs)
  {
    if s.loading then LoadingView
    else if s.txs == [] then EmptyView
    else if Renderable(s.txs) then RowsView(Rows(s.txs, nowMs))
    else RenderError
  }

  /** The end of one `fetchTxs` run (on mount and every 3 seconds): a delivered list
      replaces the stored one, a thrown fetch keeps it, and loading ends either way. */
  function Fetched(s: TableState, list: Option<seq<RpcAddress.ExplorerTx>>): (r: TableState)
    ensures !r.loading
    ensures list.Some? ==> r.txs == list.value
    ensures list.None? ==> r.txs == s.txs
  {
    TableState(if list.Some? then list.value else s.txs, false)
  }

  /** The fetch the table uses swallows every failure into an empty page, so a failed
      poll blanks the table to "No transactions found." rather than keeping the rows. */
  lemma FailedPollShowsEmpty(s: TableState, resp: Fetched<Option<RpcPages.PageResult<RpcAddress.ExplorerTx>>>,
                              nowMs: int)
    requires !RpcPages.Succeeded(resp)
    ensures Render(Fetched(s, Some(RpcPages.PageOf(resp).list)), nowMs) == EmptyView
  {
  }

  /** After any poll the table shows the fetched page and nothing of the previous
      state: never "Loading", "No transactions found." for an empty page, and one row
      per transaction, in order, for a renderable one. */
  lemma PollShowsPage(s: TableState, resp: Fetched<Option<RpcPages.PageResult<RpcAddress.ExplorerTx>>>,
                      nowMs: int)
    ensures Render(Fetched(s, Some(RpcPages.PageOf(resp).list)), nowMs) != LoadingView
    ensures RpcPages.PageOf(resp).list == [] ==>
              Render(Fetched(s, Some(RpcPages.PageOf(resp).list)), nowMs) == EmptyView
    ensures RpcPages.PageOf(resp).list != [] && Renderable(RpcPages.PageOf(resp).list) ==>
              Render(Fetched(s, Some(RpcPages.PageOf(resp).list)), nowMs) ==
              RowsView(Rows(RpcPages.PageOf(resp).list, nowMs))
  {
  }

  /** Rendering a list in two parts renders each part on its own. */
  lemma RowsAppend(a: seq<RpcAddress.ExplorerTx>, b: seq<RpcAddress.ExplorerTx>, nowMs: int)
    requires Renderable(a) && Renderable(b)
    ensures Renderable(a + b)
    ensures Rows(a + b, nowMs) == Rows(a, nowMs) + Rows(b, nowMs)
  {
    assert Renderable(a + b) by {
      forall i | 0 <= i < |a + b|
        ensures (a + b)[i].hash.Some? && (a + b)[i].from.Some?
      {
        if i >= |a| {
          assert (a + b)[i] == b[i - |a|];
        }
      }
    }
    var l := Rows(a + b, nowMs);
    var r := Rows(a, nowMs) + Rows(b, nowMs);
    forall i | 0 <= i < |l|
      ensures l[i] == r[i]
    {
      if i < |a| {
        assert (a + b)[i] == a[i];
        assert Some(l[i]) == RowOf(a[i], nowMs) == Some(r[i]);
      } else {
        assert (a + b)[i] == b[i - |a|];
        assert Some(l[i]) == RowOf(b[i - |a|], nowMs) == Some(r[i]);
      }
    }
  }
}

=== FILE: tx_detail.dfy ===
/** The transaction detail view of src/components/TxDetailClient.tsx: the hash guard,
    the not-found guard, the exact big-integer gas fee and the status label. */
module TxDetail {
  import opened Wrappers

  /** The fields of `provider.getTransaction(hash)` the view computes with. */
  datatype RpcTransaction = RpcTransaction(hash: string, gasPrice: Option<nat>)

  /** The fields of `provider.getTransactionReceipt(hash)` the view computes with;
      `status` is null for receipts that carry none. */
  datatype Receipt = Receipt(gasUsed: Option<nat>, status: Option<int>)

  /** `getTransactionWithReceipt`: either part may be null. */
  datatype TxWithReceipt = TxWithReceipt(tx: Option<RpcTransaction>, receipt: Option<Receipt>)

  /** The status cell. */
  datatype StatusLabel = Success | Failed

  /** What the view shows. */
  datatype View = Loading | NotFound | Detail(hash: string, gasFee: nat, status: StatusLabel)

  /** `BigInt(receipt.gasUsed ?? '0') * BigInt(tx.gasPrice ?? '0')`: the exact fee in the
      smallest unit, a missing factor counting as 0. */
  function GasFee(gasUsed: Option<nat>, gasPrice: Option<nat>): (fee: nat)
    ensures gasUsed.None? || gasPrice.None? ==> fee == 0
    ensures gasUsed.Some? && gasPrice.Some? ==> fee == gasUsed.value * gasPrice.value
    ensures fee == 0 <==> gasUsed.GetOr(0) == 0 || gasPrice.GetOr(0) == 0
  {
    gasUsed.GetOr(0) * gasPrice.GetOr(0)
  }

  /** `receipt.status === 1 ? "Success" : "Failed"`. */
  function StatusOf(status: Option<int>): (r: StatusLabel)
    ensures r == Success <==> status == Some(1)
  {
    if status == Some(1) then Success else Failed
  }

  /** The view for route parameter `hash` once the fetch has `settled` (None while
      pending, or for ever when the fetch rejects, since `loading` is then never
      cleared). An absent or empty hash issues no fetch and stays loading. */
  function ViewOf(hash: Option<string>, settled: Option<TxWithReceipt>): (r: View)
    ensures hash.None? || hash == Some("") ==> r == Loading
    ensures settled.None? ==> r == Loading
    ensures r == NotFound <==>
              hash.Some? && hash.value != "" && settled.Some? &&
              (settled.value.tx.None? || settled.value.receipt.None?)
    ensures r.Detail? <==>
              hash.Some? && hash.value != "" && settled.Some? &&
              settled.value.tx.Some? && settled.value.receipt.Some?
    ensures r.Detail? ==>
              r.hash == settled.value.tx.value.hash &&
              r.gasFee == GasFee(settled.value.receipt.value.gasUsed, settled.value.tx.value.gasPrice) &&
              r.status == StatusOf(settled.value.receipt.value.status)
  {
    if hash.None? || hash.value == "" || settled.None? then Loading
    else
      var d := settled.value;
      if d.tx.None? || d.receipt.None? then NotFound
      else Detail(d.tx.value.hash, GasFee(d.receipt.value.gasUsed, d.tx.value.gasPrice),
                  StatusOf(d.receipt.value.status))
  }

  /** Once a fetch for a non-empty hash has settled with both parts present, the view
      always shows the transaction's hash, the exact product of gas used and gas price
      (a missing factor reading as 0), and "Success" exactly for status 1. */
  lemma SettledShowsDetail(hash: string, tx: RpcTransaction, receipt: Receipt)
    requires hash != ""
    ensures ViewOf(Some(hash), Some(TxWithReceipt(Some(tx), Some(receipt)))) ==
            Detail(tx.hash, receipt.gasUsed.GetOr(0) * tx.gasPrice.GetOr(0),
                   if receipt.status == Some(1) then Success else Failed)
  {
  }

  /** The fee shown is a multiple of the gas price, and dividing it by a positive gas
      price gives back the gas used, so the detail determines the gas the transaction
      consumed. */
  lemma FeeRecoversGasUsed(hash: string, tx: RpcTransaction, receipt: Receipt)
    requires hash != ""
    requires tx.gasPrice.Some? && tx.gasPrice.value > 0 && receipt.gasUsed.Some?
    ensures ViewOf(Some(hash), Some(TxWithReceipt(Some(tx), Some(receipt)))).Detail?
    ensures ViewOf(Some(hash), Some(TxWithReceipt(Some(tx), Some(receipt)))).gasFee % tx.gasPrice.value == 0
    ensures ViewOf(Some(hash), Some(TxWithReceipt(Some(tx), Some(receipt)))).gasFee / tx.gasPrice.value ==
            receipt.gasUsed.value
  {
    var u := receipt.gasUsed.value;
    var p := tx.gasPrice.value;
    var fee := ViewOf(Some(hash), Some(TxWithReceipt(Some(tx), Some(receipt)))).gasFee;
    assert fee == u * p;
    MultipleDivides(u, p);
  }

  /** `(u * p) / p == u` with no remainder. */
  lemma MultipleDivides(u: nat, p: nat)
    requires p > 0
    ensures (u * p) % p == 0 && (u * p) / p == u
  {
    var q := (u * p) / p;
    var m := (u * p) % p;
    assert (u - q) * p == m by {
      assert (u - q) * p == u * p - q * p;
    }
    if u > q {
      AtLeastOnce(u - q, p);
      assert false;
    }
  }

  /** A positive multiple of `p` is at least `p`. */
  lemma AtLeastOnce(k: nat, p: nat)
    requires k >= 1
    ensures k * p >= p
  {
  }
}

=== FILE: wrappers.dfy ===
/** Optional values and the outcomes of asynchronous calls, shared by every module. */
module Wrappers {

  /** A value that may be absent: JavaScript's `undefined` and `null` both read as None. */
  datatype Option<+T> = None | Some(value: T) {

    /** The value, or `default` when absent: JavaScript's `v ?? default`. */
    function GetOr(default: T): T {
      match this
      case Some(v) => v
      case None => default
    }
  }

  /** The outcome of `fetch(url)` followed by `res.json()`: either one of them threw
      (network failure, unparsable body), or an HTTP response with its `ok` flag and
      its parsed body. */
  datatype Fetched<+J> = Threw | Http(ok: bool, body: J)

  /** The outcome of an awaited call that may reject (an RPC provider call). */
  datatype Settled<+T> = Rejected | Resolved(value: T)
}
